=== FILE: README.md ===
# Todo: a Dafny model of the task dashboard and its Go backend

The system is a small todo application. A React dashboard lists, searches, groups, creates,
edits, toggles and deletes tasks. A Go HTTP server keeps users, sessions and todos in SQLite and
authenticates every request with the `_cookie` session cookie. This project models both halves
as pure functions over immutable data and proves properties about them.

**Frontend**

- `Tasks` is the gateway in `frontend/src/lib/tasks.ts`. It covers:
  - the keyword categoriser;
  - the status mapping between `todo`/`in_progress`/`completed` and the three UI statuses;
  - the conversions between backend todos and dashboard tasks;
  - the four task calls, each returning the POST it sends.
- `Dashboard` is the list logic of `frontend/src/pages/TodoDashboard.tsx`. It covers:
  - search and the Inbox/Today/Completed views;
  - priority grouping and the rendered sections;
  - sidebar counts and due-date labels and colours;
  - the optimistic completion toggle with rollback;
  - task loading and the create/edit/delete handlers;
  - the submit guards of the two modals.
- `AuthSession` is the session state machine of `frontend/src/contexts/AuthContext.tsx`, together with the visibility and buttons of `frontend/src/components/LoginPrompt.tsx`.

**Backend**

- `Store` holds the three SQLite tables of `backend/app/models` as sequences in row-id order, with AUTOINCREMENT counters. Two things are parameters rather than computed:
  - the SHA-1 `Encrypt` is an uninterpreted function;
  - UUID generation, the clock and injected statement failures come in through `Env`.
- `Http`, `Server`, `RouteMain`, `RouteAuth` and `Mux` cover the CORS wrapper, the cookie session lookup, the `parseURL` id extraction, the seven handlers and the route table of `backend/app/controllers`.

**Cross-cutting properties**

`Flows` proves properties that span several requests or both halves of the system:

- a sign-out closes the session;
- a sign-in opens one for the right user;
- a saved todo is listed;
- sign-up followed by sign-in succeeds;
- the id the dashboard puts in a path is the id the server parses back.

**Behaviour modelled as written**

- `todoUpdate` and `todoDelete` do not check that the todo belongs to the signed-in user. The model keeps this: any signed-in user can update or delete any existing todo.
- A failed `CreateSession` read can leave a freshly inserted session row behind. The model keeps this too.

## Model

| member | source | states |
|---|---|---|
| Text.TrimEmptyIffBlank | frontend/src/pages/TodoDashboard.tsx:484 | a string trims to empty exactly when it is all ECMAScript whitespace, so `if (q.trim())` tests "not blank" |
| Text.DecimalValueOfNatToString | frontend/src/lib/tasks.ts:51 | reading back the decimal numeral of a non-negative id gives the id |
| Tasks.Categorize | frontend/src/lib/tasks.ts:25-36 | the category is Work iff a work keyword occurs case-insensitively; Team iff no work keyword and a team keyword occurs; Personal iff neither and a personal keyword occurs |
| Tasks.CategorizeIgnoresCase | frontend/src/lib/tasks.ts:26 | lower-casing the content first never changes the category |
| Tasks.StatusFromWire | frontend/src/lib/tasks.ts:39-44 | Completed iff the wire status is `completed`, In Progress iff it is `in_progress`; anything else reads as To Do |
| Tasks.StatusToWire | frontend/src/lib/tasks.ts:64-69 | always one of the three backend statuses; `completed`/`in_progress` exactly for those UI statuses |
| Tasks.WireStatusRoundTrip | frontend/src/lib/tasks.ts:39-44 | each backend status survives conversion to the UI and back |
| Tasks.UiStatusRoundTrip | frontend/src/lib/tasks.ts:64-69 | each UI status survives conversion to the wire and back |
| Tasks.ConvertTodoToTask | frontend/src/lib/tasks.ts:25-59 | the id is a digit string whose value is the backend id; name is the content; project and category are the keyword category; blank priority becomes `medium` and blank due date today; others are kept |
| Tasks.ConvertTaskToTodo | frontend/src/lib/tasks.ts:62-77 | the body always carries a valid status and a non-empty priority; absent or empty fields take `""`, `medium` or today |
| Tasks.BackendRoundTrip | frontend/src/lib/tasks.ts:25-77 | todo to task to body returns content and status unchanged, the two defaults being the only edits |
| Tasks.TaskRoundTrip | frontend/src/lib/tasks.ts:25-77 | a normalised task sent to the backend and echoed back converts to the same task |
| Tasks.ConvertAll | frontend/src/lib/tasks.ts:85-91 | one task per todo, in order, each the conversion of its todo |
| Tasks.GetTasks | frontend/src/lib/tasks.ts:81-96 | an array is converted elementwise, a falsy `todos` yields no tasks, a truthy non-array throws only under status `success`, and a rejection is re-thrown |
| Tasks.Rethrow | frontend/src/lib/tasks.ts:107-110 | a call fails exactly when the request rejected, and then with the fixed message |
| Tasks.CreateTask | frontend/src/lib/tasks.ts:99-111 | posts the name, the priority or `medium`, the due date or today to `/todos/save`; fails iff the post rejected, with the create message |
| Tasks.UpdateTask | frontend/src/lib/tasks.ts:114-122 | posts the converted patch to `/todos/update/` followed by the id; fails iff the post rejected, with the update message |
| Tasks.DeleteTask | frontend/src/lib/tasks.ts:125-132 | posts an empty object to `/todos/delete/` followed by the id; fails iff the post rejected, with the delete message |
| Dashboard.Search | frontend/src/pages/TodoDashboard.tsx:484-488 | keeps list order; a task survives iff a non-blank query occurs case-insensitively in its name; a blank query keeps everything |
| Dashboard.FilteredTasks | frontend/src/pages/TodoDashboard.tsx:481-501 | an order-preserving sub-list holding exactly the tasks matching both the search and the view |
| Dashboard.InboxCompletedPartition | frontend/src/pages/TodoDashboard.tsx:490-500 | for one query, Inbox and Completed are disjoint and together hold every searched task exactly once |
| Dashboard.TodayWithinInbox | frontend/src/pages/TodoDashboard.tsx:490-500 | the Today view is an order-preserving sub-list of the Inbox view |
| Dashboard.GroupByPriority | frontend/src/pages/TodoDashboard.tsx:503-509 | each group holds exactly the tasks of its priority; tasks with any other priority are in no group |
| Dashboard.GroupsExact | frontend/src/pages/TodoDashboard.tsx:503-509 | each group keeps its tasks with their full multiplicity and in list order |
| Dashboard.GroupSizes | frontend/src/pages/TodoDashboard.tsx:503-509 | the three groups plus the ungrouped tasks account for the whole list |
| Dashboard.RenderedSections | frontend/src/pages/TodoDashboard.tsx:729-730 | no sections in the Completed view; otherwise only non-empty groups, in high, medium, low order, and every non-empty group is shown |
| Dashboard.SectionsFacts | frontend/src/pages/TodoDashboard.tsx:729-730 | the concatenated sections are non-empty, ordered by priority rank and cover every non-empty group |
| Dashboard.SidebarCounts | frontend/src/pages/TodoDashboard.tsx:544-563 | the badges equal the unsearched view sizes; Inbox plus Completed is the list length; Today never exceeds Inbox |
| Dashboard.FormatDueDate | frontend/src/pages/TodoDashboard.tsx:520-532 | Today iff the date is today; Tomorrow iff it is tomorrow and not today; Overdue iff it sorts before today and is not tomorrow; else the date itself |
| Dashboard.DueDateColor | frontend/src/pages/TodoDashboard.tsx:534-539 | red iff the date sorts before today, orange iff it is today |
| Dashboard.LabelMatchesColor | frontend/src/pages/TodoDashboard.tsx:520-539 | when tomorrow sorts after today, the Overdue label coincides with red and the Today label with orange |
| Dashboard.FindTask | frontend/src/pages/TodoDashboard.tsx:444-445 | absent iff no task has the id; otherwise the first task in list order with that id |
| Dashboard.SetStatus | frontend/src/pages/TodoDashboard.tsx:447-453 | the same length; tasks with the id get the new status, all others are unchanged |
| Dashboard.ToggleBegin | frontend/src/pages/TodoDashboard.tsx:443-456 | nothing happens iff the id is unknown; otherwise the flipped status is applied at once and the update request carries the whole task: its name, the flipped status (`completed` iff it was not Completed), and its priority and due date with the `medium`/today defaults |
| Dashboard.ToggleStoresFlipped | frontend/src/pages/TodoDashboard.tsx:443-456 | for a task the backend sent, the row the update stores reads back as the same task with only its status flipped |
| Dashboard.ToggleSettle | frontend/src/pages/TodoDashboard.tsx:455-465 | success keeps the board; failure shows the toggle error and restores the previous status |
| Dashboard.ToggleTaskCompletion | frontend/src/pages/TodoDashboard.tsx:443-466 | other tasks are never touched; the task ends flipped on success and as before on failure |
| Dashboard.ToggleRollback | frontend/src/pages/TodoDashboard.tsx:455-465 | with unique ids a failed toggle leaves the list exactly as it was and shows the error |
| Dashboard.ToggleAt | frontend/src/pages/TodoDashboard.tsx:447-453 | with unique ids a successful toggle rewrites exactly the one task with the id |
| Dashboard.ToggleTwice | frontend/src/pages/TodoDashboard.tsx:443-466 | two successful toggles restore a To Do or Completed task |
| Dashboard.LoadBegin | frontend/src/pages/TodoDashboard.tsx:376-377 | the spinner starts only when asked, the error clears, the list is untouched |
| Dashboard.LoadTasks | frontend/src/pages/TodoDashboard.tsx:374-387 | the spinner always stops; success replaces the list and stamps the refresh time; failure keeps the list and shows the load error |
| Dashboard.OnSessionChange | frontend/src/pages/TodoDashboard.tsx:362-372 | nothing during initialisation; afterwards a signed-in user gets a spinner-showing load (a successful reply replaces the list and stamps the refresh time), and otherwise only the spinner stops |
| Dashboard.HandleCreate | frontend/src/pages/TodoDashboard.tsx:389-403 | success reloads without the spinner; failure shows and re-throws the create error |
| Dashboard.HandleDelete | frontend/src/pages/TodoDashboard.tsx:421-431 | success reloads without the spinner; failure shows and re-throws the delete error |
| Dashboard.HandleEditAsWritten | frontend/src/pages/TodoDashboard.tsx:405-419 | the request carries the form's fields and no status, so it always asks for `todo` |
| Dashboard.EditResetsStatus | frontend/src/pages/TodoDashboard.tsx:405-419 | editing a task that is not To Do sends a status that reads back as To Do |
| Dashboard.HandleEdit | frontend/src/pages/TodoDashboard.tsx:405-419 | the corrected edit: the request carries the form's name and the task's current status; success reloads, failure shows and re-throws the update error |
| Dashboard.EditWith | frontend/src/pages/TodoDashboard.tsx:405-419 | the update request is the patch sent; success reloads, failure shows and re-throws the update error |
| Dashboard.CreateModalSubmit | frontend/src/pages/TodoDashboard.tsx:41-63 | submits iff the name is not blank and no submission is running; the trimmed form is submitted; the form resets and the modal closes without waiting for the submission; otherwise nothing changes |
| Dashboard.EditModalSubmit | frontend/src/pages/TodoDashboard.tsx:180-197 | submits iff there is a task, the name is not blank and nothing is in flight; closes iff the submission resolved |
| Dashboard.EditModalDelete | frontend/src/pages/TodoDashboard.tsx:199-212 | deletes iff there is a task and nothing is in flight; closes iff the deletion resolved |
| AuthSession.IsAuthenticated | frontend/src/contexts/AuthContext.tsx:158 | signed in iff some user is stored, the placeholder user included |
| AuthSession.CheckAuth | frontend/src/contexts/AuthContext.tsx:67-93 | a user in the reply is stored; else a truthy `todos` stores the placeholder user; else, or on rejection, the user is cleared; never an error, the check is marked done |
| AuthSession.InitAuth | frontend/src/contexts/AuthContext.tsx:30-47 | only the dashboard probes; initialisation always ends with the check marked done |
| AuthSession.InitAuthProbesOnlyDashboard | frontend/src/contexts/AuthContext.tsx:30-47 | off the dashboard the probe's reply cannot affect the state |
| AuthSession.PromptTimerFires | frontend/src/contexts/AuthContext.tsx:50-65 | the prompt comes up iff it was up or the state still arms the timer; nothing else changes |
| AuthSession.Login | frontend/src/contexts/AuthContext.tsx:95-115 | fails iff the request rejected, showing the login error and keeping the user; a reply with a user stores it; one without re-runs the check; the prompt is dismissed |
| AuthSession.Signup | frontend/src/contexts/AuthContext.tsx:117-128 | never changes the user or the prompt; fails iff the request rejected, with the signup error |
| AuthSession.Logout | frontend/src/contexts/AuthContext.tsx:130-144 | the user is always cleared; success also dismisses the prompt, failure shows the "logged out locally" error |
| AuthSession.DismissLoginPrompt | frontend/src/contexts/AuthContext.tsx:146-148 | the prompt flag goes down and nothing else changes |
| AuthSession.PromptVisibleIff | frontend/src/components/LoginPrompt.tsx:10-16 | the prompt renders iff it is flagged, initialisation is over and the page is the dashboard; never on login or signup |
| AuthSession.AuthenticatedSeesNoPrompt | frontend/src/contexts/AuthContext.tsx:158 | while the prompt invariant holds, a signed-in user never sees the prompt on any page |
| AuthSession.PromptClick | frontend/src/components/LoginPrompt.tsx:26-53 | all three controls dismiss; only "Go to Login" navigates, to `/login` |
| AuthSession.ApplyPreserves | frontend/src/contexts/AuthContext.tsx:50-148 | each transition keeps "prompt only for a checked anonymous visitor" and never restarts initialisation |
| AuthSession.RunPreserves | frontend/src/contexts/AuthContext.tsx:50-148 | any sequence of transitions keeps the prompt invariant |
| AuthSession.AfterStartup | frontend/src/contexts/AuthContext.tsx:30-65 | after start-up and any events, initialisation is over, the check is done and the prompt invariant holds |
| Store.WFUnique | backend/app/models/base.go:41-73 | in a well-formed store, session uuids and user ids identify at most one row |
| Store.CreateUser | backend/app/models/users.go:26-44 | fails iff the insert faults or the uuid is taken; otherwise appends one row with the hashed password and keeps the store well formed |
| Store.GetUserByEmail | backend/app/models/users.go:88-110 | the first user with that email in row order, or no rows |
| Store.UpdateUser | backend/app/models/users.go:70-77 | rewrites only name and email of the rows with the id; every other row and table is unchanged and the store stays well formed |
| Store.DeleteUser | backend/app/models/users.go:79-86 | removes exactly the rows with the id, keeping order; sessions and todos stay; the store stays well formed |
| Store.InsertSessionRow | backend/app/models/users.go:112-120 | either the store is unchanged or one session row for the user is appended; the insert happens iff it neither faults nor collides on uuid |
| Store.CreateSession | backend/app/models/users.go:112-132 | the session returned is a row of the updated store belonging to the user; the new row when the user had none |
| Store.CheckSession | backend/app/models/users.go:134-152 | in a well-formed store the session is valid iff the read succeeds and some row has the uuid |
| Store.DeleteSessionByUuid | backend/app/models/users.go:154-161 | removes exactly the sessions with the uuid |
| Store.GetUserBySession | backend/app/models/users.go:163-185 | the first user whose id is the session's user id, or no rows |
| Store.CreateTodo | backend/app/models/todos.go:18-45 | fails iff the insert faults; otherwise keeps every older row and appends one row owned by the user with status `todo`, blank priority as `medium` and blank due date as today |
| Store.CreateTodoKeepsWF | backend/app/models/todos.go:18-45 | the new row takes the next AUTOINCREMENT id, so a well-formed store stays well formed |
| Store.CreateTodoAppends | backend/app/models/todos.go:18-45 | the store after a create is the old rows followed by exactly the row the insert writes |
| Store.ReadTodo | backend/app/models/todos.go:48-64 | a row scans iff content, owner and creation time are non-NULL; NULL priority, status and due date read as `medium`, `todo` and the database's today |
| Store.GetTodo | backend/app/models/todos.go:47-69 | without a fault, the first row with the id read as one row is read; no rows when no row has the id; a found todo has the id |
| Store.ScanRows | backend/app/models/todos.go:85-102 | unscannable rows are skipped; the others are read in order; the error reported is the last row's |
| Store.ScanList | backend/app/models/todos.go:85-101 | the todos appended are the scannable rows, each read as one row is read, in row order |
| Store.GetTodosByUser | backend/app/models/todos.go:71-103 | every returned todo belongs to the user; the result is the scan of the user's rows |
| Store.UpdateTodo | backend/app/models/todos.go:105-112 | overwrites content, owner, priority, status and due date of the rows with the id; every other row and table is unchanged |
| Store.DeleteTodo | backend/app/models/todos.go:114-121 | removes exactly the rows with the id |
| Store.TodoWritesKeepScannable | backend/app/models/todos.go:18-121 | the three todo writes never introduce a row the scan would skip |
| Store.ScanAllScannable | backend/app/models/todos.go:85-102 | when every row scans, nothing is skipped and no error is reported |
| Store.GetTodosByUserComplete | backend/app/models/todos.go:71-103 | in a store of scannable rows, listing returns every row of the user and no error |
| Store.CreatedTodoListedLast | backend/app/models/todos.go:18-103 | after a create, the owner's listing reports no error and ends with the new todo, whatever the older rows hold |
| Store.ListedLastOf | backend/app/models/todos.go:71-103 | a store whose last row is a complete row of the user lists that row's todo last, with no error |
| Store.OwnRowListedLast | backend/app/models/todos.go:71-103 | a complete row of the user appended to any rows is the last todo of the user's scan, and leaves no error |
| Store.ScanLast | backend/app/models/todos.go:85-102 | a scannable last row is read last and clears the error |
| Http.StringField | backend/app/controllers/route_main.go:82-91 | an absent or null member decodes as `""`, a string as itself, any other type fails |
| Http.DecodeFields | backend/app/controllers/route_main.go:82-91 | a non-object fails, `null` gives all-empty fields, an object decodes iff every requested member decodes |
| Server.Cors | backend/app/controllers/server.go:13-35 | a preflight is answered 200 with the CORS headers without running the handler; anything else runs it |
| Server.Session | backend/app/controllers/server.go:37-46 | no cookie is its own error; otherwise valid iff the store's session check is; a valid session is a row with the cookie's uuid |
| Server.MatchTodoPath | backend/app/controllers/server.go:48 | a match lies under `/todos/` and carries one of the three actions and a non-empty run of digits |
| Server.MatchTodoPathSound | backend/app/controllers/server.go:48 | a match has the shape `/todos/(edit\|update\|delete)/digits/?` |
| Server.MatchTodoPathComplete | backend/app/controllers/server.go:48 | every path of that shape matches, with its action and digits |
| Server.MatchRestComplete | backend/app/controllers/server.go:48 | after the `/todos/` prefix, an action, a slash and digits with an optional slash match as that action and those digits |
| Server.Atoi | backend/app/controllers/server.go:57 | digits parse iff their value fits a signed 64-bit int, to that value |
| Server.ParseUrl | backend/app/controllers/server.go:50-64 | an id is found iff the path has the shape and the digits fit, and it is their value |
| Server.WithId | backend/app/controllers/server.go:50-64 | a path without an id is a 404; otherwise the handler runs with the id |
| Server.ParseUrlOfNumeral | backend/app/controllers/server.go:48-64 | any numeral, with leading zeros and an optional trailing slash, parses back to its number |
| Server.LeadingZerosValue | backend/app/controllers/server.go:57 | leading zeros do not change a numeral's value |
| RouteMain.Authorize | backend/app/controllers/route_main.go:14-25 | 401 iff there is no valid session; a user-lookup failure is 500; success is a stored user owning a session with the cookie |
| RouteMain.ReadJson | backend/app/controllers/route_main.go:75-91 | an unreadable body is 400 "Failed to read request body"; bad JSON or a mistyped field is 400 "Invalid JSON" |
| RouteMain.Index | backend/app/controllers/route_main.go:13-59 | the store is unchanged; 200 iff authorised and the listing succeeds, returning the user's todos and identity; listing failure is 500 |
| RouteMain.TodoSave | backend/app/controllers/route_main.go:61-106 | only a 200 changes the store; 200 iff authorised, decoded and inserted, the new last row owned by the session's user |
| RouteMain.UpdateRecord | backend/app/controllers/route_main.go:143-160 | blank priority, status and due date take `medium`, `todo` and today; owner is the session's user |
| RouteMain.TodoUpdate | backend/app/controllers/route_main.go:108-174 | only a 200 changes the store; 200 iff authorised, decoded and written; the rows with the id get the record |
| RouteMain.TodoDelete | backend/app/controllers/route_main.go:176-211 | only a 200 changes the store; a missing todo is 404; 200 iff authorised, found and deleted |
| RouteMain.TodoDeleteRemovesExisting | backend/app/controllers/route_main.go:176-211 | any signed-in user deletes any existing todo by id, whoever owns it, when its row reads back |
| RouteAuth.DecodeJson | backend/app/controllers/route_auth.go:14-19 | any read or decode failure is 400 "Invalid JSON"; success iff the body decodes |
| RouteAuth.Signup | backend/app/controllers/route_auth.go:11-39 | a non-POST is an empty 200 with no effect; bad JSON and insert failures leave the store unchanged; a store change means the user was created |
| RouteAuth.Authenticate | backend/app/controllers/route_auth.go:41-88 | unknown email or wrong password is 401; success sets the session cookie and returns the user; only sessions are ever appended |
| RouteAuth.Logout | backend/app/controllers/route_auth.go:90-117 | always 200 with the expiring cookie; with a cookie the session is deleted unless the delete faults |
| Mux.RouteOf | backend/app/controllers/server.go:66-75 | exact patterns match only their path; the two subtree patterns match their prefix; the bare subtree roots redirect to the slash form |
| Mux.Serve | backend/app/controllers/server.go:66-75 | routed paths go through the CORS wrapper, subtree roots get a 301, anything else is a plain 404 |
| Mux.PreflightNeverRunsHandler | backend/app/controllers/server.go:26-35 | a preflight on a routed path changes nothing and is answered 200 |
| Mux.CorsOnRoutedPaths | backend/app/controllers/server.go:13-35 | a response carries the CORS headers iff its path is routed |
| Mux.IdRoutes | backend/app/controllers/server.go:72-73 | on the update and delete routes a path without an id is a 404 with CORS headers; otherwise the handler gets the id |
| Flows.TaskPathsCarryTheId | frontend/src/lib/tasks.ts:114-132 | the path the dashboard builds from a converted task parses back, on the server, to the backend id |
| Flows.SignOutClosesSession | backend/app/controllers/route_auth.go:90-117 | after sign-out with a cookie, that cookie gets 401 from the todo list |
| Flows.SignInOpensSession | backend/app/controllers/route_auth.go:41-88 | after a successful sign-in, the cookie it set lists the todos of the user who signed in |
| Flows.SavedTodoIsListed | backend/app/controllers/route_main.go:61-106 | a saved todo is the last one the next listing returns |
| Flows.SignupAppends | backend/app/controllers/route_auth.go:11-39 | a sign-up with a fresh uuid appends the new account with the hashed password |
| Flows.SigninSucceeds | backend/app/controllers/route_auth.go:41-88 | signing in with the password of the first account for an email succeeds as that account |
| Flows.SignUpThenSignIn | backend/app/controllers/route_auth.go:11-88 | signing up and then signing in with the same credentials succeeds as the new user, when the email was not taken |

## Left out

- Text.ToLower: lower-cases ASCII letters only. JavaScript's `toLowerCase` also folds non-ASCII letters.
- Text.LexLess compares by code point. JavaScript's `<` compares UTF-16 code units, which differ only outside the Basic Multilingual Plane.
- Dashboard.FormatDueDate: returns the date string itself where the source renders it in US locale format (`toLocaleDateString`).
- Dates are strings and "today"/"tomorrow" are parameters. Time zones and the `Date` arithmetic behind them are not modelled.
- Timers, React re-rendering and interleaving are not modelled. Each handler is one atomic transition; the prompt's 1.5 s timer is the predicate under which it fires.
- The browser transport (`frontend/src/lib/api.ts`, `frontend/src/lib/auth.ts`) is not part of this model. A call is a `Reply`: a parsed body or a rejection.
- Ids above 2^53 are not modelled. JavaScript loses precision there; the model's ids are unbounded naturals.
- Go's JSON decoding is reduced to string fields:
  - member names are matched exactly, not case-insensitively;
  - trailing data after the document is not modelled.
- The `SignupRequest` and `AuthRequest` structs are not part of this model. Their JSON names are taken to be `name`, `email`, `password`.
- The `Content-Type` header, the `X-Content-Type-Options` header and the trailing newline of `http.Error` are not modelled.
- Mux.Serve: the 301 redirect for `/todos/update` and `/todos/delete` carries only the `Location` header. On GET, Go's `http.Redirect` also sets an HTML `Content-Type` and writes a short link body; the dashboard never requests these paths.
- The standard multiplexer's path cleaning (redirects for `..`, `//`) and its host patterns are not modelled.
- `GetUser` (users.go:46-68) is not called by any handler and is not modelled.
- Store.GetTodosByUser: returns rows in rowid order. The query has no `ORDER BY`, so SQLite promises no order; a plain table scan yields rowid order, and the model fixes that choice.
- Store.CreateUser: stores name, email, password hash and session email exactly as given. The columns are declared `STRING` (base.go:41-73), which SQLite gives NUMERIC affinity, so numeric-looking text such as `007`, `1.0` or `5e3` is stored as a number and reads back re-formatted (`7`, `1`, `5000`). The model keeps strings as text.
- Store.GetUserByEmail: compares emails as strings, so a lookup key is found only when it is equal character for character. Under NUMERIC affinity, `WHERE email = ?` also matches numerically equal text (`007` finds a user stored as `7`). Emails containing `@` are never numeric, so the sign-in flows are unaffected.
- The `description` column and the schema migration in base.go are not modelled.
- SHA-1 (`Encrypt`) and UUID generation are parameters of `Env`. Only the equality of hashes matters to the model.
- The UI sign-up page's client-side password checks are not part of this model.
- RouteMain.UpdateRecord: leaves the record's creation time empty. `UPDATE` does not write that column.

## Findings

| source | as written | input that shows it | evidently intended | confidence | as-written member | corrected member |
|---|---|---|---|---|---|---|
| frontend/src/pages/TodoDashboard.tsx:405-419 | `handleEditTask` passes name, priority and due date but no status to `updateTask`. `convertTaskToTodo` then writes `todo` (frontend/src/lib/tasks.ts:64-69). | Edit only the name of a Completed task: the backend stores it as `todo`, so the task reopens. | An edit keeps the task's current status. | not executed | Dashboard.HandleEditAsWritten, Dashboard.EditResetsStatus | Dashboard.HandleEdit |

=== FILE: api.dfy ===
/** What the browser's transport hands back to the callers in the model. The HTTP exchange
    itself (fetch, credentials, JSON parsing) is abstracted: a call either resolves with a
    parsed body or rejects. An empty response body resolves as `EmptyPayload`. */
module Api {
  import opened Common

  /** The identity record the frontend keeps for the signed-in user. */
  datatype User = User(id: int, name: string, email: string)

  /** A todo as the backend serialises it in `GET /todos`. Ids are SQLite row ids, so non-negative. */
  datatype BackendTodo = BackendTodo(
    id: nat, content: string, userId: int, priority: string, status: string, dueDate: string, createdAt: string)

  /** The `todos` member of a reply, classified the way the frontend tests it:
      falsy (absent, `null`), an array, or some other truthy value. */
  datatype TodosField = Falsy | TodoArray(items: seq<BackendTodo>) | TruthyNonArray

  /** The members of a parsed reply that the frontend reads; an absent `status` is `""`. */
  datatype Payload = Payload(user: Option<User>, todos: TodosField, status: string)

  /** A settled transport call. */
  datatype Reply = Replied(payload: Payload) | Rejected(reason: string)

  const EmptyPayload := Payload(None, Falsy, "")
}

=== FILE: auth.dfy ===
/** The browser's session state machine and the login prompt it drives. Every remote call is
    a parameter (how it settled); each operation is one atomic transition from its start to
    its settlement; the prompt timer is the predicate under which it is armed. */
module AuthSession {
  import opened Common
  import opened Api

  datatype AuthState = AuthState(
    user: Option<User>, isLoading: bool, isInitializing: bool, hasCheckedAuth: bool,
    error: Option<string>, showLoginPrompt: bool)

  const Initial := AuthState(None, false, true, false, None, false)

  const Dashboard := "/dashboard"
  const LoginPath := "/login"
  const SignupPath := "/signup"

  /** The identity stored when the probe proves a session but names no user. */
  const Placeholder := User(0, "User", "")

  const LoginError := "Login failed. Please check your credentials."
  const SignupError := "Signup failed. Please try again."
  const LogoutError := "Logout failed, but you have been logged out locally."

  /** The prompt is never up during initialisation, before the first check, or for a signed-in user. */
  predicate Inv(s: AuthState) {
    s.showLoginPrompt ==> s.hasCheckedAuth && !s.isInitializing && s.user.None?
  }

  /** `isAuthenticated: !!user`: any stored user, the placeholder included, counts as signed in. */
  predicate IsAuthenticated(s: AuthState) {
    s.user.Some?
  }

  /** `checkAuth`: probes `GET /todos`. A user in the reply is stored; failing that, a truthy `todos`
      (an empty array included) stores the placeholder; otherwise, or when the probe rejects, the
      user is cleared and no error shows. */
  function CheckAuth(s: AuthState, probe: Reply): (r: AuthState)
    ensures !r.isLoading && r.hasCheckedAuth && r.error.None?
    ensures r.isInitializing == s.isInitializing
    ensures probe.Replied? && probe.payload.user.Some? ==> r.user == probe.payload.user && !r.showLoginPrompt
    ensures probe.Replied? && probe.payload.user.None? && !probe.payload.todos.Falsy? ==>
      r.user == Some(Placeholder) && !r.showLoginPrompt
    ensures (probe.Rejected? || (probe.payload.user.None? && probe.payload.todos.Falsy?)) ==>
      r.user.None? && r.showLoginPrompt == s.showLoginPrompt
  {
    var started := s.(isLoading := true, error := None);
    var settled :=
      match probe
      case Rejected(_) => started.(user := None, error := None)
      case Replied(p) =>
        if p.user.Some? then started.(user := p.user, showLoginPrompt := false)
        else if !p.todos.Falsy? then started.(user := Some(Placeholder), showLoginPrompt := false)
        else started.(user := None);
    settled.(isLoading := false, hasCheckedAuth := true)
  }

  /** The one-time `initAuth` effect: only the dashboard probes; other pages just mark the check done. */
  function InitAuth(s: AuthState, path: string, probe: Reply): (r: AuthState)
    ensures !r.isInitializing && r.hasCheckedAuth
    ensures path == Dashboard ==> r == CheckAuth(s, probe).(isInitializing := false)
    ensures path != Dashboard ==> r == s.(hasCheckedAuth := true, isInitializing := false)
  {
    var started := s.(isInitializing := true);
    var checked := if path == Dashboard then CheckAuth(started, probe) else started.(hasCheckedAuth := true);
    checked.(isInitializing := false)
  }

  /** Off the dashboard the probe's outcome is never looked at: no request is made. */
  lemma InitAuthProbesOnlyDashboard(s: AuthState, path: string, p1: Reply, p2: Reply)
    requires path != Dashboard
    ensures InitAuth(s, path, p1) == InitAuth(s, path, p2)
  {
  }

  /** The condition under which the prompt effect starts its 1.5 s timer. */
  predicate PromptArmed(s: AuthState, path: string) {
    !s.isInitializing && s.hasCheckedAuth && s.user.None? && !s.isLoading && path == Dashboard
  }

  /** The timer fires only if the state still arms it; any disqualifying change cancels it. */
  function PromptTimerFires(s: AuthState, path: string): (r: AuthState)
    ensures r.showLoginPrompt <==> s.showLoginPrompt || PromptArmed(s, path)
    ensures r.(showLoginPrompt := s.showLoginPrompt) == s
  {
    if PromptArmed(s, path) then s.(showLoginPrompt := true) else s
  }

  /** `login`: a user in the reply is stored; a reply without one waits and re-runs `checkAuth`;
      a rejection shows the login error and is re-thrown. The spinner always stops. */
  function Login(s: AuthState, reply: Reply, probe: Reply): (r: (AuthState, Outcome))
    ensures !r.0.isLoading && !r.0.showLoginPrompt
    ensures r.1.Failed? <==> reply.Rejected?
    ensures reply.Rejected? ==> r.0.error == Some(LoginError) && r.0.user == s.user && r.1.message == reply.reason
    ensures reply.Replied? && reply.payload.user.Some? ==> r.0.user == reply.payload.user && r.0.error.None?
    ensures reply.Replied? && reply.payload.user.None? ==> r.0 == CheckAuth(s.(showLoginPrompt := false), probe)
    ensures r.0.isInitializing == s.isInitializing
  {
    var started := s.(error := None, isLoading := true, showLoginPrompt := false);
    match reply
    case Rejected(reason) => (started.(error := Some(LoginError), isLoading := false), Failed(reason))
    case Replied(p) =>
      if p.user.Some? then (started.(user := p.user, isLoading := false), Done)
      else (CheckAuth(started, probe).(isLoading := false), Done)
  }

  /** `signup`: never stores a user; a rejection shows the signup error and is re-thrown. */
  function Signup(s: AuthState, reply: Reply): (r: (AuthState, Outcome))
    ensures r.0.user == s.user && r.0.showLoginPrompt == s.showLoginPrompt && !r.0.isLoading
    ensures r.0.isInitializing == s.isInitializing && r.0.hasCheckedAuth == s.hasCheckedAuth
    ensures r.1.Failed? <==> reply.Rejected?
    ensures reply.Rejected? ==> r.0.error == Some(SignupError) && r.1.message == reply.reason
    ensures reply.Replied? ==> r.0.error.None?
  {
    var started := s.(error := None, isLoading := true);
    match reply
    case Rejected(reason) => (started.(error := Some(SignupError), isLoading := false), Failed(reason))
    case Replied(_) => (started.(isLoading := false), Done)
  }

  /** `logout`: the user is cleared whatever the server says and nothing is thrown; only a
      successful call also clears the prompt, a failed one leaves the "logged out locally" error. */
  function Logout(s: AuthState, reply: Reply): (r: AuthState)
    ensures r.user.None? && !r.isLoading
    ensures r.isInitializing == s.isInitializing && r.hasCheckedAuth == s.hasCheckedAuth
    ensures reply.Replied? ==> !r.showLoginPrompt && r.error.None?
    ensures reply.Rejected? ==> r.showLoginPrompt == s.showLoginPrompt && r.error == Some(LogoutError)
  {
    var started := s.(error := None, isLoading := true);
    var settled :=
      match reply
      case Replied(_) => started.(user := None, showLoginPrompt := false)
      case Rejected(_) => started.(user := None, error := Some(LogoutError));
    settled.(isLoading := false)
  }

  function DismissLoginPrompt(s: AuthState): (r: AuthState)
    ensures !r.showLoginPrompt
    ensures r.(showLoginPrompt := s.showLoginPrompt) == s
  {
    s.(showLoginPrompt := false)
  }

  // ---------------------------------------------------------------- the prompt component

  /** `LoginPrompt` renders only on the dashboard, outside initialisation, when the flag is up. */
  predicate PromptVisible(s: AuthState, path: string) {
    var isAuthPage := path == LoginPath || path == SignupPath;
    var isDashboardPage := path == Dashboard;
    !(s.isInitializing || !s.showLoginPrompt || isAuthPage || !isDashboardPage)
  }

  /** The auth-page test is subsumed by the dashboard test. */
  lemma PromptVisibleIff(s: AuthState, path: string)
    ensures PromptVisible(s, path) <==> !s.isInitializing && s.showLoginPrompt && path == Dashboard
    ensures path == LoginPath || path == SignupPath ==> !PromptVisible(s, path)
  {
  }

  /** A signed-in user, the placeholder included, never sees the prompt while the invariant holds. */
  lemma AuthenticatedSeesNoPrompt(s: AuthState, path: string)
    requires Inv(s)
    ensures IsAuthenticated(s) ==> !PromptVisible(s, path)
  {
  }

  datatype PromptControl = CloseButton | DismissButton | GoToLogin

  /** The prompt's three controls all dismiss it; only "Go to Login" also navigates, to `/login`. */
  function PromptClick(s: AuthState, c: PromptControl): (r: (AuthState, Option<string>))
    ensures r.0 == DismissLoginPrompt(s)
    ensures r.1.Some? <==> c == GoToLogin
    ensures r.1.Some? ==> r.1.value == LoginPath
  {
    (DismissLoginPrompt(s), if c == GoToLogin then Some(LoginPath) else None)
  }

  // ---------------------------------------------------------------- runs

  /** Everything that can happen to the session after start-up. */
  datatype Event =
    | Check(probe: Reply)
    | LoginEv(reply: Reply, probe: Reply)
    | SignupEv(reply: Reply)
    | LogoutEv(reply: Reply)
    | TimerFires(path: string)
    | Click(control: PromptControl)

  function Apply(s: AuthState, e: Event): AuthState {
    match e
    case Check(probe) => CheckAuth(s, probe)
    case LoginEv(reply, probe) => Login(s, reply, probe).0
    case SignupEv(reply) => Signup(s, reply).0
    case LogoutEv(reply) => Logout(s, reply)
    case TimerFires(path) => PromptTimerFires(s, path)
    case Click(c) => PromptClick(s, c).0
  }

  function Run(s: AuthState, es: seq<Event>): AuthState
    decreases |es|
  {
    if |es| == 0 then s else Run(Apply(s, es[0]), es[1..])
  }

  /** Every transition keeps the prompt invariant and never re-enters initialisation. */
  lemma ApplyPreserves(s: AuthState, e: Event)
    requires Inv(s)
    ensures Inv(Apply(s, e))
    ensures Apply(s, e).isInitializing == s.isInitializing
    ensures s.hasCheckedAuth ==> Apply(s, e).hasCheckedAuth
    ensures (e.Check? || e.LoginEv?) && Apply(s, e).user.Some? ==> !Apply(s, e).showLoginPrompt
    ensures !(e.Check? || e.LoginEv?) && Apply(s, e).user.Some? ==> Apply(s, e).user == s.user
  {
  }

  lemma {:induction false} RunPreserves(s: AuthState, es: seq<Event>)
    requires Inv(s)
    ensures Inv(Run(s, es))
    ensures Run(s, es).isInitializing == s.isInitializing
    ensures s.hasCheckedAuth ==> Run(s, es).hasCheckedAuth
    decreases |es|
  {
    if |es| > 0 {
      ApplyPreserves(s, es[0]);
      RunPreserves(Apply(s, es[0]), es[1..]);
    }
  }

  /** After start-up, whatever happens, initialisation is over, the check counts as done, and the
      prompt is only ever up for an anonymous visitor. */
  lemma AfterStartup(path: string, probe: Reply, es: seq<Event>)
    ensures var s := Run(InitAuth(Initial, path, probe), es);
      !s.isInitializing && s.hasCheckedAuth && Inv(s)
  {
    RunPreserves(InitAuth(Initial, path, probe), es);
  }
}

=== FILE: common.dfy ===
/** Failure-carrying wrappers shared by every layer of the model. */
module Common {

  /** An optional value: a JavaScript `null`/`undefined` field, a SQL NULL, a missing cookie. */
  datatype Option<+T> = None | Some(value: T) {
    function GetOr(default: T): T {
      match this
      case Some(v) => v
      case None => default
    }
  }

  /** A value or an error: a Go `(value, err)` pair or a JavaScript promise that may reject. */
  datatype Result<+T, +E> = Ok(value: T) | Err(error: E)

  /** The outcome of an action that yields nothing on success: a promise that resolves or
      rejects with a message. */
  datatype Outcome = Done | Failed(message: string)
}

=== FILE: dashboard.dfy ===
/** The dashboard's list logic: search and view filters, priority grouping, sidebar counts,
    due-date labels, the optimistic completion toggle, task loading and the modal submit guards. */
module Dashboard {
  import opened Common
  import opened Api
  import opened Tasks
  import Text
  import Seqs

  datatype View = Inbox | Today | CompletedView

  /** The dashboard's own state: the task list, the spinner, the error banner, the last refresh time. */
  datatype Board = Board(tasks: seq<Task>, loading: bool, error: Option<string>, lastRefresh: Option<int>)

  const LoadError := "Failed to load tasks. Please check your connection."
  const ToggleError := "Failed to update task status."

  // ---------------------------------------------------------------- search and views

  /** A non-blank query is active; a blank one shows everything. */
  predicate SearchActive(query: string) {
    Text.Trim(query) != []
  }

  /** Case-insensitive substring match of the untrimmed query on the task name. */
  predicate MatchesQuery(query: string, t: Task) {
    Text.Contains(Text.ToLower(t.name), Text.ToLower(query))
  }

  function QueryFilter(query: string): Task -> bool {
    t => MatchesQuery(query, t)
  }

  predicate InView(v: View, today: string, t: Task) {
    match v
    case CompletedView => t.status == Completed
    case Today => t.status != Completed && t.dueDate == today
    case Inbox => t.status != Completed
  }

  function ViewFilter(v: View, today: string): Task -> bool {
    t => InView(v, today, t)
  }

  function Search(tasks: seq<Task>, query: string): (r: seq<Task>)
    ensures Seqs.IsSubseq(r, tasks)
    ensures forall t :: t in r <==> t in tasks && (!SearchActive(query) || MatchesQuery(query, t))
    ensures !SearchActive(query) ==> r == tasks
  {
    if SearchActive(query) then
      Seqs.FilterIsSubseq(tasks, QueryFilter(query));
      Seqs.Filter(tasks, QueryFilter(query))
    else
      Seqs.SubseqRefl(tasks);
      tasks
  }

  /** `getFilteredTasks`: the search first, then the selected view, both keeping list order. */
  function FilteredTasks(tasks: seq<Task>, query: string, v: View, today: string): (r: seq<Task>)
    ensures Seqs.IsSubseq(r, tasks)
    ensures forall t :: t in r <==>
      t in tasks && (!SearchActive(query) || MatchesQuery(query, t)) && InView(v, today, t)
  {
    var searched := Search(tasks, query);
    Seqs.FilterIsSubseq(searched, ViewFilter(v, today));
    Seqs.SubseqTrans(Seqs.Filter(searched, ViewFilter(v, today)), searched, tasks);
    Seqs.Filter(searched, ViewFilter(v, today))
  }

  /** For a fixed query, Inbox and Completed split the searched list: every match is in exactly one. */
  lemma InboxCompletedPartition(tasks: seq<Task>, query: string, today: string)
    ensures multiset(FilteredTasks(tasks, query, Inbox, today)) + multiset(FilteredTasks(tasks, query, CompletedView, today))
         == multiset(Search(tasks, query))
    ensures |FilteredTasks(tasks, query, Inbox, today)| + |FilteredTasks(tasks, query, CompletedView, today)|
         == |Search(tasks, query)|
    ensures forall t :: !(t in FilteredTasks(tasks, query, Inbox, today) && t in FilteredTasks(tasks, query, CompletedView, today))
  {
    Seqs.FilterPartition(Search(tasks, query), ViewFilter(Inbox, today), ViewFilter(CompletedView, today));
  }

  /** The Today view is the part of the Inbox view due today, in the same order. */
  lemma TodayWithinInbox(tasks: seq<Task>, query: string, today: string)
    ensures Seqs.IsSubseq(FilteredTasks(tasks, query, Today, today), FilteredTasks(tasks, query, Inbox, today))
    ensures |FilteredTasks(tasks, query, Today, today)| <= |FilteredTasks(tasks, query, Inbox, today)|
  {
    var s := Search(tasks, query);
    var dueToday: Task -> bool := (t: Task) => t.dueDate == today;
    Seqs.FilterFilter(s, ViewFilter(Inbox, today), dueToday, ViewFilter(Today, today));
    Seqs.FilterIsSubseq(Seqs.Filter(s, ViewFilter(Inbox, today)), dueToday);
  }

  // ---------------------------------------------------------------- grouping

  datatype Groups = Groups(high: seq<Task>, medium: seq<Task>, low: seq<Task>)

  /** One rendered priority section. */
  datatype Section = Section(priority: string, items: seq<Task>)

  function PriorityIs(p: string): Task -> bool {
    (t: Task) => t.priority == p
  }

  /** A priority outside the three the dashboard groups by. */
  predicate Ungrouped(t: Task) {
    t.priority != "high" && t.priority != "medium" && t.priority != "low"
  }

  /** `groupTasksByPriority`. */
  function GroupByPriority(ts: seq<Task>): (g: Groups)
    ensures forall t :: t in g.high <==> t in ts && t.priority == "high"
    ensures forall t :: t in g.medium <==> t in ts && t.priority == "medium"
    ensures forall t :: t in g.low <==> t in ts && t.priority == "low"
    ensures forall t :: Ungrouped(t) ==> t !in g.high && t !in g.medium && t !in g.low
  {
    Groups(Seqs.Filter(ts, PriorityIs("high")), Seqs.Filter(ts, PriorityIs("medium")), Seqs.Filter(ts, PriorityIs("low")))
  }

  /** Each group holds exactly the tasks of its priority, each as often as in the input, in input order. */
  lemma GroupsExact(ts: seq<Task>, t: Task)
    ensures var g := GroupByPriority(ts);
      && multiset(g.high)[t] == (if t.priority == "high" then multiset(ts)[t] else 0)
      && multiset(g.medium)[t] == (if t.priority == "medium" then multiset(ts)[t] else 0)
      && multiset(g.low)[t] == (if t.priority == "low" then multiset(ts)[t] else 0)
      && Seqs.IsSubseq(g.high, ts) && Seqs.IsSubseq(g.medium, ts) && Seqs.IsSubseq(g.low, ts)
  {
    Seqs.FilterMultiplicity(ts, PriorityIs("high"), t);
    Seqs.FilterMultiplicity(ts, PriorityIs("medium"), t);
    Seqs.FilterMultiplicity(ts, PriorityIs("low"), t);
    Seqs.FilterIsSubseq(ts, PriorityIs("high"));
    Seqs.FilterIsSubseq(ts, PriorityIs("medium"));
    Seqs.FilterIsSubseq(ts, PriorityIs("low"));
  }

  /** The three groups and the ungrouped tasks account for every task exactly once. */
  lemma {:induction false} GroupSizes(ts: seq<Task>)
    ensures var g := GroupByPriority(ts);
      |g.high| + |g.medium| + |g.low| + |Seqs.Filter(ts, Ungrouped)| == |ts|
    decreases |ts|
  {
    if |ts| > 0 {
      GroupSizes(ts[1..]);
    }
  }

  function Rank(p: string): int {
    if p == "high" then 0 else if p == "medium" then 1 else 2
  }

  predicate NonEmptySection(s: Section) {
    |s.items| > 0
  }

  const Priorities: seq<string> := ["high", "medium", "low"]

  /** The group a priority names; the empty sequence for any other string. */
  function GroupOf(g: Groups, p: string): seq<Task> {
    if p == "high" then g.high else if p == "medium" then g.medium else if p == "low" then g.low else []
  }

  /** What the task list renders: nothing grouped in the Completed view; otherwise the
      high, medium and low sections in that order, each only when it has tasks. */
  function RenderedSections(v: View, filtered: seq<Task>): (r: Option<seq<Section>>)
    ensures r.None? <==> v == CompletedView
    ensures r.Some? ==> forall k :: 0 <= k < |r.value| ==>
      && r.value[k].priority in Priorities
      && |r.value[k].items| > 0
      && r.value[k].items == GroupOf(GroupByPriority(filtered), r.value[k].priority)
    ensures r.Some? ==> forall j, k :: 0 <= j < k < |r.value| ==> Rank(r.value[j].priority) < Rank(r.value[k].priority)
    ensures r.Some? ==> forall p :: p in Priorities && |GroupOf(GroupByPriority(filtered), p)| > 0 ==>
      exists k :: 0 <= k < |r.value| && r.value[k].priority == p
  {
    if v == CompletedView then None
    else
      var g := GroupByPriority(filtered);
      var shown := Shown("high", g.high) + Shown("medium", g.medium) + Shown("low", g.low);
      SectionsFacts(g, shown);
      Some(shown)
  }

  /** The section for one priority, or none when the group is empty (the `length === 0` check). */
  function Shown(p: string, items: seq<Task>): seq<Section> {
    if |items| > 0 then [Section(p, items)] else []
  }

  lemma SectionsFacts(g: Groups, shown: seq<Section>)
    requires shown == Shown("high", g.high) + Shown("medium", g.medium) + Shown("low", g.low)
    ensures forall k :: 0 <= k < |shown| ==>
      && shown[k].priority in Priorities
      && |shown[k].items| > 0
      && shown[k].items == GroupOf(g, shown[k].priority)
    ensures forall j, k :: 0 <= j < k < |shown| ==> Rank(shown[j].priority) < Rank(shown[k].priority)
    ensures forall p :: p in Priorities && |GroupOf(g, p)| > 0 ==>
      exists k :: 0 <= k < |shown| && shown[k].priority == p
  {
    var h := Shown("high", g.high);
    var m := Shown("medium", g.medium);
    if |g.high| > 0 {
      assert shown[0].priority == "high";
    }
    if |g.medium| > 0 {
      assert shown[|h|].priority == "medium";
    }
    if |g.low| > 0 {
      assert shown[|h| + |m|].priority == "low";
    }
  }

  // ---------------------------------------------------------------- sidebar

  datatype Counts = Counts(inbox: nat, today: nat, completed: nat)

  /** The sidebar badges, counted over the whole list with no search applied. */
  function SidebarCounts(tasks: seq<Task>, today: string): (c: Counts)
    ensures c.inbox + c.completed == |tasks|
    ensures c.today <= c.inbox
    ensures c.inbox == |FilteredTasks(tasks, "", Inbox, today)|
    ensures c.today == |FilteredTasks(tasks, "", Today, today)|
    ensures c.completed == |FilteredTasks(tasks, "", CompletedView, today)|
  {
    assert Text.Trim("") == [];
    assert Search(tasks, "") == tasks;
    InboxCompletedPartition(tasks, "", today);
    TodayWithinInbox(tasks, "", today);
    Counts(|Seqs.Filter(tasks, ViewFilter(Inbox, today))|,
           |Seqs.Filter(tasks, ViewFilter(Today, today))|,
           |Seqs.Filter(tasks, ViewFilter(CompletedView, today))|)
  }

  // ---------------------------------------------------------------- due dates

  datatype DueLabel = DueToday | DueTomorrow | Overdue | OnDate(date: string)
  datatype DueColor = Red | Orange | Gray

  /** `formatDueDate`, up to the locale formatting of the plain-date case. Dates compare as strings. */
  function FormatDueDate(due: string, today: string, tomorrow: string): (l: DueLabel)
    ensures l == DueToday <==> due == today
    ensures l == DueTomorrow <==> due != today && due == tomorrow
    ensures l == Overdue <==> due != tomorrow && Text.LexLess(due, today)
    ensures l.OnDate? ==> l.date == due
  {
    Text.LexLessIrreflexive(today);
    if due == today then DueToday
    else if due == tomorrow then DueTomorrow
    else if Text.LexLess(due, today) then Overdue
    else OnDate(due)
  }

  /** `getDueDateColor`. */
  function DueDateColor(due: string, today: string): (c: DueColor)
    ensures c == Red <==> Text.LexLess(due, today)
    ensures c == Orange <==> due == today
  {
    Text.LexLessIrreflexive(today);
    if Text.LexLess(due, today) then Red else if due == today then Orange else Gray
  }

  /** With tomorrow after today, a label reads Overdue exactly when the date is red,
      and Today exactly when it is orange. */
  lemma LabelMatchesColor(due: string, today: string, tomorrow: string)
    requires Text.LexLess(today, tomorrow)
    ensures FormatDueDate(due, today, tomorrow) == Overdue <==> DueDateColor(due, today) == Red
    ensures FormatDueDate(due, today, tomorrow) == DueToday <==> DueDateColor(due, today) == Orange
  {
    if due == tomorrow {
      Text.LexLessAsymmetric(today, tomorrow);
    }
  }

  // ---------------------------------------------------------------- toggle

  /** `tasks.find(t => t.id === id)`: the first task with the id. */
  function FindTask(tasks: seq<Task>, id: string): (r: Option<Task>)
    ensures r.None? <==> forall i :: 0 <= i < |tasks| ==> tasks[i].id != id
    ensures r.Some? ==> r.value in tasks && r.value.id == id
    ensures forall k :: 0 <= k < |tasks| && tasks[k].id == id && (forall i :: 0 <= i < k ==> tasks[i].id != id) ==>
                        r == Some(tasks[k])
    decreases |tasks|
  {
    if |tasks| == 0 then None
    else if tasks[0].id == id then Some(tasks[0])
    else
      assert forall k :: 0 < k < |tasks| ==> tasks[k] == tasks[1..][k - 1];
      FindTask(tasks[1..], id)
  }

  function Flip(s: UiStatus): UiStatus {
    if s == Completed then ToDo else Completed
  }

  /** Sets the status of every task carrying `id`; all other tasks are left as they are. */
  function SetStatus(tasks: seq<Task>, id: string, s: UiStatus): (r: seq<Task>)
    ensures |r| == |tasks|
    ensures forall i :: 0 <= i < |tasks| && tasks[i].id != id ==> r[i] == tasks[i]
    ensures forall i :: 0 <= i < |tasks| && tasks[i].id == id ==> r[i] == tasks[i].(status := s)
    decreases |tasks|
  {
    if |tasks| == 0 then []
    else [if tasks[0].id == id then tasks[0].(status := s) else tasks[0]] + SetStatus(tasks[1..], id, s)
  }

  predicate UniqueIds(tasks: seq<Task>) {
    forall i, j :: 0 <= i < j < |tasks| ==> tasks[i].id != tasks[j].id
  }

  /** The optimistic half of `toggleTaskCompletion`: no task, nothing happens; otherwise the
      flipped status is applied at once and the update request is issued. */
  datatype Toggle = Untouched | Pending(board: Board, request: Post, previous: UiStatus)

  function ToggleBegin(b: Board, id: string, today: string): (r: Toggle)
    ensures r.Untouched? <==> FindTask(b.tasks, id).None?
    ensures r.Pending? ==>
      && r.previous == FindTask(b.tasks, id).value.status
      && r.board == b.(tasks := SetStatus(b.tasks, id, Flip(r.previous)))
      && r.request.path == "/todos/update/" + id
      && r.request.body.UpdateJson?
      && (r.request.body.update.status == "completed" <==> r.previous != Completed)
    ensures r.Pending? ==> var task := FindTask(b.tasks, id).value; var sent := r.request.body.update;
      && sent.content == task.name
      && StatusFromWire(sent.status) == Flip(r.previous)
      && sent.priority == OrDefault(task.priority, "medium")
      && sent.dueDate == OrDefault(task.dueDate, today)
  {
    match FindTask(b.tasks, id)
    case None => Untouched
    case Some(task) =>
      var flipped := Flip(task.status);
      Pending(b.(tasks := SetStatus(b.tasks, id, flipped)),
              UpdateTask(id, AsPatch(task.(status := flipped)), today, Replied(EmptyPayload)).0,
              task.status)
  }

  /** What the backend stores for a toggle of a task it sent reads back as that task flipped:
      every other field the UPDATE overwrites keeps its value. */
  lemma ToggleStoresFlipped(b: Board, id: string, today: string, backendId: nat, userId: int, createdAt: string)
    requires ToggleBegin(b, id, today).Pending?
    requires var task := FindTask(b.tasks, id).value;
      && task.id == Text.NatToString(backendId) && task.priority != "" && task.dueDate != ""
      && task.project == Categorize(task.name) && task.category == task.project
    ensures var task := FindTask(b.tasks, id).value; var sent := ToggleBegin(b, id, today).request.body.update;
      ConvertTodoToTask(BackendTodo(backendId, sent.content, userId, sent.priority, sent.status, sent.dueDate, createdAt), today)
        == task.(status := Flip(task.status))
  {
  }

  /** The settling half: on failure the error is shown and the tasks with `id` in the board
      as it is now get back their previous status. */
  function ToggleSettle(now: Board, id: string, previous: UiStatus, sent: Reply): (r: Board)
    ensures sent.Replied? ==> r == now
    ensures sent.Rejected? ==> r.error == Some(ToggleError) && r.tasks == SetStatus(now.tasks, id, previous)
  {
    if sent.Rejected? then now.(error := Some(ToggleError), tasks := SetStatus(now.tasks, id, previous)) else now
  }

  /** The toggle with nothing interleaved between its two halves. */
  function ToggleTaskCompletion(b: Board, id: string, today: string, sent: Reply): (r: Board)
    ensures FindTask(b.tasks, id).None? ==> r == b
    ensures |r.tasks| == |b.tasks|
    ensures forall i :: 0 <= i < |b.tasks| && b.tasks[i].id != id ==> r.tasks[i] == b.tasks[i]
    ensures FindTask(b.tasks, id).Some? ==> forall i :: 0 <= i < |b.tasks| && b.tasks[i].id == id ==>
      r.tasks[i] == b.tasks[i].(status := if sent.Replied? then Flip(FindTask(b.tasks, id).value.status)
                                          else FindTask(b.tasks, id).value.status)
  {
    match ToggleBegin(b, id, today)
    case Untouched => b
    case Pending(optimistic, _, previous) => ToggleSettle(optimistic, id, previous, sent)
  }

  /** A failed toggle leaves the list exactly as it was (ids are unique) and shows the error. */
  lemma ToggleRollback(b: Board, id: string, today: string, sent: Reply)
    requires UniqueIds(b.tasks) && FindTask(b.tasks, id).Some? && sent.Rejected?
    ensures ToggleTaskCompletion(b, id, today, sent).tasks == b.tasks
    ensures ToggleTaskCompletion(b, id, today, sent).error == Some(ToggleError)
  {
    var r := ToggleTaskCompletion(b, id, today, sent);
    var t := FindTask(b.tasks, id).value;
    forall i | 0 <= i < |b.tasks| && b.tasks[i].id == id
      ensures b.tasks[i] == t
    {
      var j :| 0 <= j < |b.tasks| && b.tasks[j] == t;
    }
  }

  /** With unique ids, a successful toggle rewrites exactly the one task carrying the id. */
  lemma ToggleAt(b: Board, id: string, today: string, sent: Reply, i: int)
    requires UniqueIds(b.tasks) && 0 <= i < |b.tasks| && b.tasks[i].id == id && sent.Replied?
    ensures ToggleTaskCompletion(b, id, today, sent).tasks == b.tasks[i := b.tasks[i].(status := Flip(b.tasks[i].status))]
  {
    var t := FindTask(b.tasks, id).value;
    var j :| 0 <= j < |b.tasks| && b.tasks[j] == t;
    assert j == i;
  }

  /** Two successful toggles restore a To Do or Completed task. */
  lemma ToggleTwice(b: Board, id: string, today: string, sent: Reply)
    requires UniqueIds(b.tasks) && FindTask(b.tasks, id).Some? && sent.Replied?
    requires FindTask(b.tasks, id).value.status != InProgress
    ensures ToggleTaskCompletion(ToggleTaskCompletion(b, id, today, sent), id, today, sent).tasks == b.tasks
  {
    var i := IndexOfFound(b.tasks, id);
    ToggleAt(b, id, today, sent, i);
    var b1 := ToggleTaskCompletion(b, id, today, sent);
    var once := b.tasks[i].(status := Flip(b.tasks[i].status));
    SameIdsUnique(b.tasks, b1.tasks);
    ToggleAt(b1, id, today, sent, i);
    assert once.(status := Flip(once.status)) == b.tasks[i];
  }

  /** The position of the task `FindTask` returns. */
  lemma IndexOfFound(tasks: seq<Task>, id: string) returns (i: int)
    requires FindTask(tasks, id).Some?
    ensures 0 <= i < |tasks| && tasks[i] == FindTask(tasks, id).value && tasks[i].id == id
  {
    i :| 0 <= i < |tasks| && tasks[i] == FindTask(tasks, id).value;
  }

  /** Rewriting fields other than the id keeps ids unique. */
  lemma SameIdsUnique(a: seq<Task>, c: seq<Task>)
    requires UniqueIds(a) && |a| == |c|
    requires forall k :: 0 <= k < |a| ==> a[k].id == c[k].id
    ensures UniqueIds(c)
  {
  }

  // ---------------------------------------------------------------- loading

  /** The synchronous start of `loadTasks`: the spinner only when asked, the error cleared. */
  function LoadBegin(b: Board, showLoading: bool): (r: Board)
    ensures r.tasks == b.tasks && r.error.None? && r.lastRefresh == b.lastRefresh
    ensures r.loading == (showLoading || b.loading)
  {
    b.(loading := showLoading || b.loading, error := None)
  }

  /** `loadTasks`: replaces the list wholesale on success, keeps it on failure; the spinner always stops. */
  function LoadTasks(b: Board, showLoading: bool, reply: Reply, today: string, now: int): (r: Board)
    ensures !r.loading
    ensures GetTasks(reply, today).Ok? ==>
      r.tasks == GetTasks(reply, today).value && r.error.None? && r.lastRefresh == Some(now)
    ensures GetTasks(reply, today).Err? ==>
      r.tasks == b.tasks && r.error == Some(LoadError) && r.lastRefresh == b.lastRefresh
  {
    var started := LoadBegin(b, showLoading);
    match GetTasks(reply, today)
    case Ok(fetched) => started.(tasks := fetched, lastRefresh := Some(now), loading := false)
    case Err(_) => started.(error := Some(LoadError), loading := false)
  }

  /** The dashboard's effect on session changes: load once initialisation is over and a user is
      present, otherwise just stop the spinner. */
  function OnSessionChange(b: Board, isInitializing: bool, signedIn: bool, reply: Reply, today: string, now: int): (r: Board)
    ensures r.tasks != b.tasks ==> !isInitializing && signedIn
    ensures !isInitializing ==> !r.loading
    ensures isInitializing ==> r == b
    ensures !isInitializing && signedIn ==> r == LoadTasks(b, true, reply, today, now)
    ensures !isInitializing && signedIn && GetTasks(reply, today).Ok? ==>
      r.tasks == GetTasks(reply, today).value && r.lastRefresh == Some(now)
    ensures !isInitializing && !signedIn ==> r == b.(loading := false)
  {
    if isInitializing then b
    else if signedIn then LoadTasks(b, true, reply, today, now)
    else b.(loading := false)
  }

  /** `handleCreateTask`: on success the list is reloaded without the spinner; on failure the
      error is shown and re-thrown. */
  function HandleCreate(b: Board, draft: Draft, today: string, sent: Reply, reload: Reply, now: int): (r: (Board, Outcome))
    ensures sent.Rejected? ==> r.0 == b.(error := Some(CreateTaskError)) && r.1 == Failed(CreateTaskError)
    ensures sent.Replied? ==> r.1 == Done && r.0 == LoadTasks(b.(error := None), false, reload, today, now)
  {
    var cleared := b.(error := None);
    match CreateTask(draft, today, sent).1
    case Done => (LoadTasks(cleared, false, reload, today, now), Done)
    case Failed(_) => (cleared.(error := Some(CreateTaskError)), Failed(CreateTaskError))
  }

  /** `handleDeleteTask`. */
  function HandleDelete(b: Board, taskId: string, today: string, sent: Reply, reload: Reply, now: int): (r: (Board, Outcome))
    ensures sent.Rejected? ==> r.0 == b.(error := Some(DeleteTaskError)) && r.1 == Failed(DeleteTaskError)
    ensures sent.Replied? ==> r.1 == Done && r.0 == LoadTasks(b.(error := None), false, reload, today, now)
  {
    var cleared := b.(error := None);
    match DeleteTask(taskId, sent).1
    case Done => (LoadTasks(cleared, false, reload, today, now), Done)
    case Failed(_) => (cleared.(error := Some(DeleteTaskError)), Failed(DeleteTaskError))
  }

  /** `handleEditTask` as written: the form's name, priority and due date go to `updateTask`, the
      task's status does not, so the request always asks for status `todo`. */
  function HandleEditAsWritten(b: Board, taskId: string, form: TaskForm, today: string, sent: Reply, reload: Reply, now: int)
    : (r: (Board, Outcome, Post))
    ensures r.2 == UpdateTask(taskId, TaskPatch(Some(form.name), Some(form.priority), None, Some(form.dueDate)), today, sent).0
    ensures r.2.body.update.status == "todo"
    ensures sent.Rejected? ==> r.0 == b.(error := Some(UpdateTaskError)) && r.1 == Failed(UpdateTaskError)
    ensures sent.Replied? ==> r.1 == Done && r.0 == LoadTasks(b.(error := None), false, reload, today, now)
  {
    EditWith(b, taskId, TaskPatch(Some(form.name), Some(form.priority), None, Some(form.dueDate)), today, sent, reload, now)
  }

  /** Editing a task that is not To Do asks the backend to reopen it: the status the request
      carries reads back as To Do. */
  lemma EditResetsStatus(b: Board, taskId: string, form: TaskForm, today: string, sent: Reply, reload: Reply, now: int)
    requires FindTask(b.tasks, taskId).Some? && FindTask(b.tasks, taskId).value.status != ToDo
    ensures var sentStatus := HandleEditAsWritten(b, taskId, form, today, sent, reload, now).2.body.update.status;
      StatusFromWire(sentStatus) == ToDo != FindTask(b.tasks, taskId).value.status
  {
  }

  /** `handleEditTask` corrected: the task's current status is sent along with the edited fields. */
  function HandleEdit(b: Board, taskId: string, form: TaskForm, today: string, sent: Reply, reload: Reply, now: int)
    : (r: (Board, Outcome, Post))
    ensures r.2.path == "/todos/update/" + taskId && r.2.body.UpdateJson?
    ensures r.2.body.update.content == form.name
    ensures FindTask(b.tasks, taskId).Some? ==> StatusFromWire(r.2.body.update.status) == FindTask(b.tasks, taskId).value.status
    ensures sent.Rejected? ==> r.0 == b.(error := Some(UpdateTaskError)) && r.1 == Failed(UpdateTaskError)
    ensures sent.Replied? ==> r.1 == Done && r.0 == LoadTasks(b.(error := None), false, reload, today, now)
  {
    var status := match FindTask(b.tasks, taskId) case Some(t) => Some(t.status) case None => None;
    EditWith(b, taskId, TaskPatch(Some(form.name), Some(form.priority), status, Some(form.dueDate)), today, sent, reload, now)
  }

  /** The shared shape of both edit handlers: send the patch, reload on success, show and re-throw the error on failure. */
  function EditWith(b: Board, taskId: string, patch: TaskPatch, today: string, sent: Reply, reload: Reply, now: int)
    : (r: (Board, Outcome, Post))
    ensures r.2 == UpdateTask(taskId, patch, today, sent).0
    ensures sent.Rejected? ==> r.0 == b.(error := Some(UpdateTaskError)) && r.1 == Failed(UpdateTaskError)
    ensures sent.Replied? ==> r.1 == Done && r.0 == LoadTasks(b.(error := None), false, reload, today, now)
  {
    var cleared := b.(error := None);
    var (post, outcome) := UpdateTask(taskId, patch, today, sent);
    match outcome
    case Done => (LoadTasks(cleared, false, reload, today, now), Done, post)
    case Failed(_) => (cleared.(error := Some(UpdateTaskError)), Failed(UpdateTaskError), post)
  }

  // ---------------------------------------------------------------- modals

  /** The fields of the create and edit forms. */
  datatype TaskForm = TaskForm(name: string, priority: string, dueDate: string)

  datatype CreateStep = CreateStep(submitted: Option<TaskForm>, closed: bool, form: TaskForm)

  /** The create modal's submit handler. It calls `onSubmit` without awaiting it, so the modal
      resets and closes whether or not the creation later fails. */
  function CreateModalSubmit(form: TaskForm, isSubmitting: bool, today: string): (r: CreateStep)
    ensures r.submitted.Some? <==> !Text.AllWhite(form.name) && !isSubmitting
    ensures r.submitted.Some? ==>
      && r.submitted.value == form.(name := Text.Trim(form.name))
      && r.submitted.value.name != []
      && r.closed && r.form == TaskForm("", "medium", today)
    ensures r.submitted.None? ==> !r.closed && r.form == form
  {
    Text.TrimEmptyIffBlank(form.name);
    if Text.Trim(form.name) != [] && !isSubmitting then
      CreateStep(Some(form.(name := Text.Trim(form.name))), true, TaskForm("", "medium", today))
    else CreateStep(None, false, form)
  }

  datatype EditStep = EditStep(submitted: Option<(string, TaskForm)>, closed: bool)

  /** The edit modal's submit handler: it waits for the submission and closes only if it resolved. */
  function EditModalSubmit(task: Option<Task>, form: TaskForm, isSubmitting: bool, isDeleting: bool, outcome: Outcome): (r: EditStep)
    ensures r.submitted.Some? <==> task.Some? && !Text.AllWhite(form.name) && !isSubmitting && !isDeleting
    ensures r.submitted.Some? ==> r.submitted.value == (task.value.id, form.(name := Text.Trim(form.name)))
    ensures r.closed <==> r.submitted.Some? && outcome.Done?
  {
    Text.TrimEmptyIffBlank(form.name);
    if task.Some? && Text.Trim(form.name) != [] && !isSubmitting && !isDeleting then
      EditStep(Some((task.value.id, form.(name := Text.Trim(form.name)))), outcome.Done?)
    else EditStep(None, false)
  }

  datatype DeleteStep = DeleteStep(deleted: Option<string>, closed: bool)

  /** The edit modal's delete handler: it waits for the deletion and closes only if it resolved. */
  function EditModalDelete(task: Option<Task>, isSubmitting: bool, isDeleting: bool, outcome: Outcome): (r: DeleteStep)
    ensures r.deleted.Some? <==> task.Some? && !isSubmitting && !isDeleting
    ensures r.deleted.Some? ==> r.deleted.value == task.value.id
    ensures r.closed <==> r.deleted.Some? && outcome.Done?
  {
    if task.Some? && !isDeleting && !isSubmitting then DeleteStep(Some(task.value.id), outcome.Done?)
    else DeleteStep(None, false)
  }
}

=== FILE: flows.dfy ===
/** Properties of sequences of requests, and of the frontend's requests as the backend reads them. */
module Flows {
  import opened Common
  import Seqs
  import Text
  import Api
  import Tasks
  import Store
  import Http
  import Server
  import RouteMain
  import RouteAuth
  import Mux

  /** The path the dashboard builds from a task's id names the same todo on the backend:
      the update and delete routes both parse it back to the row id. */
  lemma TaskPathsCarryTheId(todo: Api.BackendTodo, today: string, patch: Tasks.TaskPatch, sent: Api.Reply)
    requires todo.id <= Server.MaxInt
    ensures var id := Tasks.ConvertTodoToTask(todo, today).id;
      && Server.ParseUrl(Tasks.UpdateTask(id, patch, today, sent).0.path) == Some(todo.id)
      && Mux.RouteOf(Tasks.UpdateTask(id, patch, today, sent).0.path) == Mux.UpdateRoute
      && Server.ParseUrl(Tasks.DeleteTask(id, sent).0.path) == Some(todo.id)
      && Mux.RouteOf(Tasks.DeleteTask(id, sent).0.path) == Mux.DeleteRoute
  {
    var id := Tasks.ConvertTodoToTask(todo, today).id;
    assert id == Text.NatToString(todo.id);
    var up := "/todos/update/" + id;
    var del := "/todos/delete/" + id;
    assert up == Server.TodosPrefix + "update" + "/" + id;
    assert del == Server.TodosPrefix + "delete" + "/" + id;
    assert Server.PathShape(up, "update", id) && Server.PathShape(del, "delete", id);
    Server.MatchTodoPathComplete(up, "update", id);
    Server.MatchTodoPathComplete(del, "delete", id);
    assert up[..|Mux.UpdatePrefix|] == Mux.UpdatePrefix;
    assert del[..|Mux.DeletePrefix|] == Mux.DeletePrefix;
  }

  /** After a sign-out with a cookie, that cookie no longer opens the todo list. */
  lemma SignOutClosesSession(req: Http.Request, db: Store.Db, env: Store.Env, next: Http.Request, env2: Store.Env)
    requires req.cookie.Some? && Store.DeleteSessionRows !in env.faults
    requires next.cookie == req.cookie
    ensures RouteMain.Index(next, RouteAuth.Logout(req, db, env).0, env2).1.status == Http.Unauthorized
  {
    var db' := RouteAuth.Logout(req, db, env).0;
  }

  /** After a successful sign-in, the cookie it set opens the todo list as the user who signed in. */
  lemma SignInOpensSession(req: Http.Request, db: Store.Db, env: Store.Env, next: Http.Request, env2: Store.Env)
    requires Store.WF(db)
    requires RouteAuth.Authenticate(req, db, env).1.status == Http.OK
    requires next.cookie == Some(RouteAuth.Authenticate(req, db, env).1.cookie.value.value)
    requires Store.SelectSessionByUuid !in env2.faults && Store.SelectUserById !in env2.faults
    ensures var r := RouteAuth.Authenticate(req, db, env);
      && RouteMain.Authorize(r.0, env2, next).Ok?
      && Http.ViewOf(RouteMain.Authorize(r.0, env2, next).value) == r.1.body.user
  {
    var r := RouteAuth.Authenticate(req, db, env);
    var f := RouteAuth.DecodeJson(req.body, RouteAuth.AuthKeys).value;
    var user := Store.GetUserByEmail(db, env, f[0]).value;
    assert r.0 == Store.InsertSessionRow(db, env, user);
    var db' := r.0;
    assert Store.WF(db');
    Store.WFUnique(db');
    var uuid := r.1.cookie.value.value;
    var i :| 0 <= i < |db'.sessions| && db'.sessions[i].uuid == uuid && db'.sessions[i].userId == r.1.body.user.id;
    var s := Server.Session(db', env2, next.cookie);
    assert s.Ok?;
    var k := Seqs.FindFirst(db'.sessions, Store.SessionWithUuid(uuid)).value;
    assert k == i;
    var j :| 0 <= j < |db.users| && Http.ViewOf(db.users[j]) == r.1.body.user;
    var m := Seqs.FindFirst(db.users, Store.UserWithId(s.value.userId)).value;
    assert m == j;
  }

  /** A todo saved through the API is the last one the next listing returns, with the fields the
      save supplied and its defaults filled in, even if older rows fail to read. */
  lemma SavedTodoIsListed(req: Http.Request, db: Store.Db, env: Store.Env, next: Http.Request, env2: Store.Env)
    requires RouteMain.TodoSave(req, db, env).1.status == Http.OK
    requires next.cookie == req.cookie
    requires Store.SelectSessionByUuid !in env2.faults && Store.SelectUserById !in env2.faults
    requires Store.SelectTodosByUser !in env2.faults
    ensures var db' := RouteMain.TodoSave(req, db, env).0;
      var listed := RouteMain.Index(next, db', env2).1;
      var f := RouteMain.ReadJson(req.body, RouteMain.SaveKeys).value;
      var user := RouteMain.Authorize(db, env, req).value;
      && listed.status == Http.OK && listed.body.todos.Some?
      && var todos := listed.body.todos.value;
         todos[|todos| - 1] == Store.Todo(db.todoSeq + 1, f[0], user.id, if f[1] == "" then "medium" else f[1], "todo",
                                          if f[2] == "" then env.today else f[2], env.now)
  {
    var db' := RouteMain.TodoSave(req, db, env).0;
    var f := RouteMain.ReadJson(req.body, RouteMain.SaveKeys).value;
    var user := RouteMain.Authorize(db, env, req).value;
    assert Store.CreateTodo(db, env, user, f[0], f[1], f[2]) == Ok(db');
    assert RouteMain.Authorize(db', env2, next) == Ok(user);
    Store.CreatedTodoListedLast(db, env, user, f[0], f[1], f[2], env2, db');
    var resp := RouteMain.Index(next, db', env2).1;
    assert resp.status == Http.OK && resp.body.todos == Some(Store.GetTodosByUser(db', env2, user).0);
    var mine := Store.GetTodosByUser(db', env2, user).0;
    assert mine[|mine| - 1] == Store.Todo(db.todoSeq + 1, f[0], user.id, if f[1] == "" then "medium" else f[1], "todo",
                                          if f[2] == "" then env.today else f[2], env.now);
  }

  function SignupBody(name: string, email: string, password: string): Http.RequestBody {
    Http.Document(Http.JObject(map["name" := Http.JString(name), "email" := Http.JString(email), "password" := Http.JString(password)]))
  }

  function SigninBody(email: string, password: string): Http.RequestBody {
    Http.Document(Http.JObject(map["email" := Http.JString(email), "password" := Http.JString(password)]))
  }

  /** A sign-up with a fresh UUID appends the new account. */
  lemma SignupAppends(name: string, email: string, password: string, cookie: Option<string>, db: Store.Db, env: Store.Env)
    requires forall i :: 0 <= i < |db.users| ==> db.users[i].uuid != env.uuid
    requires Store.InsertUser !in env.faults
    ensures RouteAuth.Signup(Http.Request("POST", "/signup", cookie, SignupBody(name, email, password)), db, env).0
         == db.(users := db.users + [Store.UserRow(db.userSeq + 1, env.uuid, name, email, env.encrypt(password), env.now)],
                userSeq := db.userSeq + 1)
  {
    var body := SignupBody(name, email, password);
    var fields := body.doc.fields;
    assert Http.StringField(fields, "name") == Some(name);
    assert Http.StringField(fields, "email") == Some(email);
    assert Http.StringField(fields, "password") == Some(password);
    var sk := RouteAuth.SignupKeys;
    assert sk[0] == "name" && sk[1] == "email" && sk[2] == "password";
    Http.DecodeFieldsOf(body.doc, sk, [name, email, password]);
  }

  /** Signing in as the first account with an email, with its password, succeeds as that account
      once the session insert goes through. */
  lemma SigninSucceeds(email: string, password: string, cookie: Option<string>, db: Store.Db, env: Store.Env, k: nat)
    requires k < |db.users| && db.users[k].email == email && db.users[k].password == env.encrypt(password)
    requires forall i :: 0 <= i < k ==> db.users[i].email != email
    requires Store.SelectUserByEmail !in env.faults && Store.InsertSession !in env.faults
    requires Store.SelectSessionByUser !in env.faults
    requires forall i :: 0 <= i < |db.sessions| ==> db.sessions[i].uuid != env.uuid
    ensures var r := RouteAuth.Authenticate(Http.Request("POST", "/authenticate", cookie, SigninBody(email, password)), db, env);
      r.1.status == Http.OK && r.1.body.user == Http.ViewOf(db.users[k])
  {
    var body := SigninBody(email, password);
    var fields := body.doc.fields;
    assert Http.StringField(fields, "email") == Some(email);
    assert Http.StringField(fields, "password") == Some(password);
    var ak := RouteAuth.AuthKeys;
    assert ak[0] == "email" && ak[1] == "password";
    Http.DecodeFieldsOf(body.doc, ak, [email, password]);
    assert Store.GetUserByEmail(db, env, email) == Ok(db.users[k]);
    assert Store.InsertSessionRow(db, env, db.users[k]) != db;
  }

  /** Signing up and then signing in with the same email and password succeeds as the new user,
      provided no earlier account has that email and the fresh UUIDs are fresh. */
  lemma SignUpThenSignIn(name: string, email: string, password: string, cookie: Option<string>,
                         db: Store.Db, env: Store.Env, env2: Store.Env)
    requires forall i :: 0 <= i < |db.users| ==> db.users[i].email != email && db.users[i].uuid != env.uuid
    requires Store.InsertUser !in env.faults
    requires env2.encrypt == env.encrypt
    requires Store.SelectUserByEmail !in env2.faults && Store.InsertSession !in env2.faults
    requires Store.SelectSessionByUser !in env2.faults
    requires forall i :: 0 <= i < |db.sessions| ==> db.sessions[i].uuid != env2.uuid
    ensures var db' := RouteAuth.Signup(Http.Request("POST", "/signup", cookie, SignupBody(name, email, password)), db, env).0;
      var r := RouteAuth.Authenticate(Http.Request("POST", "/authenticate", cookie, SigninBody(email, password)), db', env2);
      r.1.status == Http.OK && r.1.body.user == Http.UserView(db.userSeq + 1, name, email)
  {
    SignupAppends(name, email, password, cookie, db, env);
    var db' := RouteAuth.Signup(Http.Request("POST", "/signup", cookie, SignupBody(name, email, password)), db, env).0;
    SigninSucceeds(email, password, cookie, db', env2, |db.users|);
  }
}

=== FILE: http.dfy ===
/** Requests and responses as the Go handlers see them: the parts of `net/http` and
    `encoding/json` they depend on. */
module Http {
  import opened Common
  import Store

  /** A JSON value in a position where the Go code expects a string. */
  datatype JsonValue = JString(s: string) | JNull | JOtherType

  /** A top-level JSON document. */
  datatype JsonDoc = JObject(fields: map<string, JsonValue>) | JNullDoc | JNotObject

  /** The request body: a read error, bytes that are not JSON, or a JSON document. */
  datatype RequestBody = Unreadable | Malformed | Document(doc: JsonDoc)

  datatype Request = Request(verb: string, path: string, cookie: Option<string>, body: RequestBody)

  datatype SetCookie = SetCookie(name: string, value: string, httpOnly: bool, path: string, maxAge: int, sameSiteLax: bool)

  datatype UserView = UserView(id: int, name: string, email: string)

  /** Response bodies. `ErrorText` is `http.Error`'s plain text; the three JSON bodies carry
      `"status": "success"`. `TodoList` holds `null` when the user has no todos. */
  datatype RespBody =
    | NoBody
    | ErrorText(text: string)
    | Message(message: string)
    | TodoList(todos: Option<seq<Store.Todo>>, user: UserView)
    | UserBody(user: UserView)

  datatype Response = Response(status: int, headers: map<string, string>, cookie: Option<SetCookie>, body: RespBody)

  const OK := 200
  const MovedPermanently := 301
  const BadRequest := 400
  const Unauthorized := 401
  const NotFound := 404
  const InternalServerError := 500

  function ViewOf(u: Store.UserRow): UserView { UserView(u.id, u.name, u.email) }

  /** `http.Error`: the given status and text, on top of the headers already set. */
  function Error(headers: map<string, string>, text: string, status: int): (r: Response)
    ensures r.status == status && r.body == ErrorText(text) && r.headers == headers && r.cookie.None?
  {
    Response(status, headers, None, ErrorText(text))
  }

  function Success(headers: map<string, string>, body: RespBody): (r: Response)
    ensures r.status == OK && r.body == body && r.headers == headers && r.cookie.None?
  {
    Response(OK, headers, None, body)
  }

  /** Decoding one string field of a struct: an absent key or `null` leaves the Go zero value `""`;
      a value of another type is an `UnmarshalTypeError`. */
  function StringField(fields: map<string, JsonValue>, key: string): (r: Option<string>)
    ensures r.None? <==> key in fields && fields[key] == JOtherType
    ensures key !in fields ==> r == Some("")
    ensures key in fields && fields[key].JString? ==> r == Some(fields[key].s)
  {
    if key !in fields then Some("")
    else match fields[key]
      case JString(s) => Some(s)
      case JNull => Some("")
      case JOtherType => None
  }

  /** Decoding a document into a struct whose fields are the strings `keys`: a `null` document
      leaves every field `""`, a non-object is a type error, and an object fails when any of the
      keys holds a non-string. */
  function DecodeFields(doc: JsonDoc, keys: seq<string>): (r: Option<seq<string>>)
    ensures r.Some? ==> |r.value| == |keys|
    ensures doc.JNotObject? ==> r.None?
    ensures doc.JNullDoc? ==> r == Some(seq(|keys|, _ => ""))
    ensures doc.JObject? ==>
      (r.Some? <==> forall i :: 0 <= i < |keys| ==> StringField(doc.fields, keys[i]).Some?)
    ensures doc.JObject? && r.Some? ==>
      forall i :: 0 <= i < |keys| ==> r.value[i] == StringField(doc.fields, keys[i]).value
    decreases |keys|
  {
    match doc
    case JNotObject => None
    case JNullDoc => Some(seq(|keys|, _ => ""))
    case JObject(fields) =>
      if |keys| == 0 then Some([])
      else match (StringField(fields, keys[0]), DecodeFields(doc, keys[1..]))
        case (Some(v), Some(rest)) => Some([v] + rest)
        case _ => None
  }

  /** An object whose keys all hold the given strings decodes to exactly those strings. */
  lemma DecodeFieldsOf(doc: JsonDoc, keys: seq<string>, values: seq<string>)
    requires doc.JObject? && |keys| == |values|
    requires forall i :: 0 <= i < |keys| ==> StringField(doc.fields, keys[i]) == Some(values[i])
    ensures DecodeFields(doc, keys) == Some(values)
  {
    assert forall i :: 0 <= i < |keys| ==> StringField(doc.fields, keys[i]).Some?;
    var r := DecodeFields(doc, keys);
    assert r.Some?;
    assert forall i :: 0 <= i < |keys| ==> r.value[i] == StringField(doc.fields, keys[i]).value == values[i];
    assert r.value == values;
  }
}

=== FILE: mux.dfy ===
/** The route table of `StartMainServer` and the standard multiplexer's dispatch over it: exact
    patterns match only themselves, the two subtree patterns ending in `/` match every path they
    prefix, a subtree pattern's name without its slash is redirected to it, and anything else is a
    bare 404 that never reaches the CORS wrapper. */
module Mux {
  import opened Common
  import Store
  import Http
  import Server
  import RouteMain
  import RouteAuth

  datatype Route =
    | SignupRoute | AuthenticateRoute | IndexRoute | LogoutRoute | SaveRoute
    | UpdateRoute | DeleteRoute | Redirect(location: string) | NoRoute

  const UpdatePrefix := "/todos/update/"
  const DeletePrefix := "/todos/delete/"

  predicate StartsWith(s: string, prefix: string) {
    |prefix| <= |s| && s[..|prefix|] == prefix
  }

  /** Which registered pattern serves a path. */
  function RouteOf(path: string): (r: Route)
    ensures r == SignupRoute <==> path == "/signup"
    ensures r == AuthenticateRoute <==> path == "/authenticate"
    ensures r == IndexRoute <==> path == "/todos"
    ensures r == LogoutRoute <==> path == "/logout"
    ensures r == SaveRoute <==> path == "/todos/save"
    ensures r == UpdateRoute <==> StartsWith(path, UpdatePrefix)
    ensures r == DeleteRoute <==> StartsWith(path, DeletePrefix)
    ensures r.Redirect? <==> path == "/todos/update" || path == "/todos/delete"
    ensures r.Redirect? ==> r.location == path + "/" && (r.location == UpdatePrefix || r.location == DeletePrefix)
  {
    if path == "/signup" then SignupRoute
    else if path == "/authenticate" then AuthenticateRoute
    else if path == "/todos" then IndexRoute
    else if path == "/logout" then LogoutRoute
    else if path == "/todos/save" then SaveRoute
    else if StartsWith(path, UpdatePrefix) then UpdateRoute
    else if StartsWith(path, DeletePrefix) then DeleteRoute
    else if path == "/todos/update" || path == "/todos/delete" then Redirect(path + "/")
    else NoRoute
  }

  function UpdateWithId(req: Http.Request, db: Store.Db, env: Store.Env): (Store.Db, Http.Response) {
    Server.WithId(RouteMain.TodoUpdate, Server.CorsHeaders, req, db, env)
  }

  function DeleteWithId(req: Http.Request, db: Store.Db, env: Store.Env): (Store.Db, Http.Response) {
    Server.WithId(RouteMain.TodoDelete, Server.CorsHeaders, req, db, env)
  }

  /** The handler each route runs inside the CORS wrapper. */
  function HandlerOf(route: Route): Option<Server.Handler> {
    match route
    case SignupRoute => Some(RouteAuth.Signup)
    case AuthenticateRoute => Some(RouteAuth.Authenticate)
    case IndexRoute => Some(RouteMain.Index)
    case LogoutRoute => Some(RouteAuth.Logout)
    case SaveRoute => Some(RouteMain.TodoSave)
    case UpdateRoute => Some(UpdateWithId)
    case DeleteRoute => Some(DeleteWithId)
    case _ => None
  }

  /** One request through the server. */
  function Serve(req: Http.Request, db: Store.Db, env: Store.Env): (r: (Store.Db, Http.Response))
    ensures HandlerOf(RouteOf(req.path)).Some? ==> r == Server.Cors(HandlerOf(RouteOf(req.path)).value, req, db, env)
    ensures RouteOf(req.path).Redirect? ==>
      r == (db, Http.Response(Http.MovedPermanently, map["Location" := req.path + "/"], None, Http.NoBody))
    ensures RouteOf(req.path) == NoRoute ==> r == (db, Http.Error(map[], "404 page not found", Http.NotFound))
  {
    match HandlerOf(RouteOf(req.path))
    case Some(h) => Server.Cors(h, req, db, env)
    case None =>
      match RouteOf(req.path)
      case Redirect(location) => (db, Http.Response(Http.MovedPermanently, map["Location" := location], None, Http.NoBody))
      case _ => (db, Http.Error(map[], "404 page not found", Http.NotFound))
  }

  /** A preflight on any registered path is answered 200 with the CORS headers and changes nothing. */
  lemma PreflightNeverRunsHandler(req: Http.Request, db: Store.Db, env: Store.Env)
    requires req.verb == "OPTIONS" && HandlerOf(RouteOf(req.path)).Some?
    ensures Serve(req, db, env) == (db, Http.Response(Http.OK, Server.CorsHeaders, None, Http.NoBody))
  {
  }

  /** Every response from a registered route carries the four CORS headers; nothing else does. */
  lemma CorsOnRoutedPaths(req: Http.Request, db: Store.Db, env: Store.Env)
    ensures Serve(req, db, env).1.headers == Server.CorsHeaders <==> HandlerOf(RouteOf(req.path)).Some?
  {
    var r := Serve(req, db, env);
    assert "Access-Control-Allow-Origin" in Server.CorsHeaders && "Location" !in Server.CorsHeaders;
    match RouteOf(req.path)
    case Redirect(_) => assert "Location" in r.1.headers;
    case NoRoute => assert "Access-Control-Allow-Origin" !in r.1.headers;
    case SignupRoute =>
    case AuthenticateRoute =>
    case IndexRoute =>
    case LogoutRoute =>
    case SaveRoute =>
    case UpdateRoute =>
    case DeleteRoute =>
  }

  /** Only the update and delete routes read an id from the path: on those, a path the id parser
      rejects is a 404 that leaves the store alone, and an accepted path runs the handler with the
      parsed id. */
  lemma IdRoutes(req: Http.Request, db: Store.Db, env: Store.Env)
    requires req.verb != "OPTIONS"
    ensures RouteOf(req.path) == UpdateRoute ==>
      Serve(req, db, env) == if Server.ParseUrl(req.path).Some?
        then RouteMain.TodoUpdate(req, db, env, Server.ParseUrl(req.path).value)
        else (db, Http.Error(Server.CorsHeaders, "404 page not found", Http.NotFound))
    ensures RouteOf(req.path) == DeleteRoute ==>
      Serve(req, db, env) == if Server.ParseUrl(req.path).Some?
        then RouteMain.TodoDelete(req, db, env, Server.ParseUrl(req.path).value)
        else (db, Http.Error(Server.CorsHeaders, "404 page not found", Http.NotFound))
  {
  }
}

=== FILE: route_auth.dfy ===
/** `route_auth.go`: sign-up, sign-in and sign-out, with their cookie effects. */
module RouteAuth {
  import opened Common
  import Store
  import Http
  import Server

  const Headers := Server.CorsHeaders

  const SignupKeys: seq<string> := ["name", "email", "password"]
  const AuthKeys: seq<string> := ["email", "password"]

  /** `json.NewDecoder(r.Body).Decode`: a read error and bad JSON are the same failure. */
  function DecodeJson(body: Http.RequestBody, keys: seq<string>): (r: Result<seq<string>, Http.Response>)
    ensures r.Err? ==> r.error == Http.Error(Headers, "Invalid JSON", Http.BadRequest)
    ensures r.Ok? <==> body.Document? && Http.DecodeFields(body.doc, keys).Some?
    ensures r.Ok? ==> r.value == Http.DecodeFields(body.doc, keys).value && |r.value| == |keys|
  {
    if body.Document? && Http.DecodeFields(body.doc, keys).Some? then Ok(Http.DecodeFields(body.doc, keys).value)
    else Err(Http.Error(Headers, "Invalid JSON", Http.BadRequest))
  }

  /** The session cookie: HttpOnly, site-wide, SameSite=Lax, a browser-session lifetime. */
  function SessionCookie(uuid: string): Http.SetCookie {
    Http.SetCookie(Server.CookieName, uuid, true, "/", 0, true)
  }

  /** The cookie that tells the browser to drop `_cookie` (`MaxAge: -1`). */
  const ExpiredCookie := Http.SetCookie(Server.CookieName, "", false, "/", -1, false)

  // ---------------------------------------------------------------- /signup

  /** `signup`: only a POST does anything; any other method gets an empty 200. */
  function Signup(req: Http.Request, db: Store.Db, env: Store.Env): (r: (Store.Db, Http.Response))
    ensures r.1.headers == Headers
    ensures req.verb != "POST" ==> r == (db, Http.Response(Http.OK, Headers, None, Http.NoBody))
    ensures req.verb == "POST" && DecodeJson(req.body, SignupKeys).Err? ==> r == (db, DecodeJson(req.body, SignupKeys).error)
    ensures req.verb == "POST" && DecodeJson(req.body, SignupKeys).Ok? ==>
      var f := DecodeJson(req.body, SignupKeys).value;
      match Store.CreateUser(db, env, f[0], f[1], f[2])
      case Err(_) => r == (db, Http.Error(Headers, "User creation failed", Http.InternalServerError))
      case Ok(db') => r == (db', Http.Success(Headers, Http.Message("User created successfully")))
    ensures r.0 != db ==> req.verb == "POST" && r.1.body == Http.Message("User created successfully")
  {
    if req.verb != "POST" then (db, Http.Response(Http.OK, Headers, None, Http.NoBody))
    else
      match DecodeJson(req.body, SignupKeys)
      case Err(resp) => (db, resp)
      case Ok(f) =>
        match Store.CreateUser(db, env, f[0], f[1], f[2])
        case Err(_) => (db, Http.Error(Headers, "User creation failed", Http.InternalServerError))
        case Ok(db') => (db', Http.Success(Headers, Http.Message("User created successfully")))
  }

  // ---------------------------------------------------------------- /authenticate

  /** `authenticate`: the stored hash must equal the hash of what was submitted. A session row may
      be inserted even when the reply is 500, because `CreateSession` inserts before it selects. */
  function Authenticate(req: Http.Request, db: Store.Db, env: Store.Env): (r: (Store.Db, Http.Response))
    ensures r.1.headers == Headers
    ensures DecodeJson(req.body, AuthKeys).Err? ==> r == (db, DecodeJson(req.body, AuthKeys).error)
    ensures DecodeJson(req.body, AuthKeys).Ok? ==>
      var f := DecodeJson(req.body, AuthKeys).value;
      var found := Store.GetUserByEmail(db, env, f[0]);
      && (found.Err? ==> r == (db, Http.Error(Headers, "Invalid credentials", Http.Unauthorized)))
      && (found.Ok? && found.value.password != env.encrypt(f[1]) ==>
            r == (db, Http.Error(Headers, "Invalid credentials", Http.Unauthorized)))
      && (found.Ok? && found.value.password == env.encrypt(f[1]) ==>
            && r.0 == Store.InsertSessionRow(db, env, found.value)
            && (r.1.status == Http.OK <==> Store.CreateSession(db, env, found.value).1.Ok?)
            && (r.1.status != Http.OK ==> r.1 == Http.Error(Headers, "Session creation failed", Http.InternalServerError)))
    ensures r.1.status == Http.OK ==>
      && r.1.cookie.Some? && r.1.cookie.value.name == Server.CookieName && r.1.cookie.value.httpOnly
      && r.1.cookie.value.path == "/"
      && r.1.body.UserBody?
      && (exists i :: 0 <= i < |r.0.sessions| && r.0.sessions[i].uuid == r.1.cookie.value.value
                      && r.0.sessions[i].userId == r.1.body.user.id)
      && (exists i :: 0 <= i < |db.users| && Http.ViewOf(db.users[i]) == r.1.body.user
                      && db.users[i].password == env.encrypt(DecodeJson(req.body, AuthKeys).value[1]))
    ensures r.0 != db ==> r.0.sessions[..|db.sessions|] == db.sessions && r.0.users == db.users && r.0.todos == db.todos
  {
    match DecodeJson(req.body, AuthKeys)
    case Err(resp) => (db, resp)
    case Ok(f) =>
      match Store.GetUserByEmail(db, env, f[0])
      case Err(_) => (db, Http.Error(Headers, "Invalid credentials", Http.Unauthorized))
      case Ok(user) =>
        if user.password == env.encrypt(f[1]) then
          var (db', sess) := Store.CreateSession(db, env, user);
          match sess
          case Err(_) => (db', Http.Error(Headers, "Session creation failed", Http.InternalServerError))
          case Ok(s) => (db', Http.Response(Http.OK, Headers, Some(SessionCookie(s.uuid)), Http.UserBody(Http.ViewOf(user))))
        else (db, Http.Error(Headers, "Invalid credentials", Http.Unauthorized))
  }

  // ---------------------------------------------------------------- /logout

  /** `logout`: deletes the cookie's session if there is a cookie, ignores a failed delete, and
      always expires the cookie and reports success. */
  function Logout(req: Http.Request, db: Store.Db, env: Store.Env): (r: (Store.Db, Http.Response))
    ensures r.1 == Http.Response(Http.OK, Headers, Some(ExpiredCookie), Http.Message("Logged out successfully"))
    ensures req.cookie.None? || Store.DeleteSessionRows in env.faults ==> r.0 == db
    ensures req.cookie.Some? && Store.DeleteSessionRows !in env.faults ==>
      && (forall x :: x in r.0.sessions <==> x in db.sessions && x.uuid != req.cookie.value)
      && r.0.(sessions := db.sessions) == db
  {
    var db' := match req.cookie
      case None => db
      case Some(uuid) =>
        match Store.DeleteSessionByUuid(db, env, uuid)
        case Ok(deleted) => deleted
        case Err(_) => db;
    (db', Http.Response(Http.OK, Headers, Some(ExpiredCookie), Http.Message("Logged out successfully")))
  }
}

=== FILE: route_main.dfy ===
/** `route_main.go`: the four todo handlers as functions from a request and a store to a new store
    and a response. Every response carries the CORS headers the wrapper set first. */
module RouteMain {
  import opened Common
  import Store
  import Seqs
  import Http
  import Server

  const Headers := Server.CorsHeaders

  const SaveKeys: seq<string> := ["content", "priority", "dueDate"]
  const UpdateKeys: seq<string> := ["content", "priority", "status", "dueDate"]

  /** The first two rungs every todo handler climbs: no valid session is 401, a session whose user
      row cannot be read is 500. */
  function Authorize(db: Store.Db, env: Store.Env, req: Http.Request): (r: Result<Store.UserRow, Http.Response>)
    ensures Server.Session(db, env, req.cookie).Err? <==> r == Err(Http.Error(Headers, "Unauthorized", Http.Unauthorized))
    ensures Server.Session(db, env, req.cookie).Ok? && r.Err? ==> r.error == Http.Error(Headers, "User not found", Http.InternalServerError)
    ensures r.Ok? ==> r.value in db.users && req.cookie.Some?
    ensures r.Ok? ==> exists i :: 0 <= i < |db.sessions| && db.sessions[i].uuid == req.cookie.value && db.sessions[i].userId == r.value.id
    ensures r.Err? ==> r.error.status in {Http.Unauthorized, Http.InternalServerError}
    ensures Server.Session(db, env, req.cookie).Ok? && Store.SelectUserById !in env.faults ==>
      (r.Ok? <==> exists i :: 0 <= i < |db.users| && db.users[i].id == Server.Session(db, env, req.cookie).value.userId)
  {
    match Server.Session(db, env, req.cookie)
    case Err(_) => Err(Http.Error(Headers, "Unauthorized", Http.Unauthorized))
    case Ok(sess) =>
      match Store.GetUserBySession(db, env, sess)
      case Err(_) => Err(Http.Error(Headers, "User not found", Http.InternalServerError))
      case Ok(user) => Ok(user)
  }

  /** `io.ReadAll` then `json.Unmarshal` into a struct of string fields. */
  function ReadJson(body: Http.RequestBody, keys: seq<string>): (r: Result<seq<string>, Http.Response>)
    ensures body.Unreadable? ==> r == Err(Http.Error(Headers, "Failed to read request body", Http.BadRequest))
    ensures body.Malformed? ==> r == Err(Http.Error(Headers, "Invalid JSON", Http.BadRequest))
    ensures body.Document? ==> (r.Ok? <==> Http.DecodeFields(body.doc, keys).Some?)
    ensures body.Document? && r.Err? ==> r.error == Http.Error(Headers, "Invalid JSON", Http.BadRequest)
    ensures r.Ok? ==> |r.value| == |keys|
  {
    match body
    case Unreadable => Err(Http.Error(Headers, "Failed to read request body", Http.BadRequest))
    case Malformed => Err(Http.Error(Headers, "Invalid JSON", Http.BadRequest))
    case Document(doc) =>
      match Http.DecodeFields(doc, keys)
      case None => Err(Http.Error(Headers, "Invalid JSON", Http.BadRequest))
      case Some(values) => Ok(values)
  }

  function Message(text: string): Http.Response {
    Http.Success(Headers, Http.Message(text))
  }

  // ---------------------------------------------------------------- GET /todos

  /** `index`: the signed-in user's todos and identity; zero todos encode as `null`. */
  function Index(req: Http.Request, db: Store.Db, env: Store.Env): (r: (Store.Db, Http.Response))
    ensures r.0 == db
    ensures r.1.headers == Headers
    ensures Authorize(db, env, req).Err? ==> r.1 == Authorize(db, env, req).error
    ensures Authorize(db, env, req).Ok? && Store.GetTodosByUser(db, env, Authorize(db, env, req).value).1.Some? ==>
      r.1 == Http.Error(Headers, "Failed to get todos", Http.InternalServerError)
    ensures r.1.status == Http.OK <==>
      Authorize(db, env, req).Ok? && Store.GetTodosByUser(db, env, Authorize(db, env, req).value).1.None?
    ensures r.1.status == Http.OK ==> var user := Authorize(db, env, req).value;
      && r.1.body.TodoList? && r.1.body.user == Http.ViewOf(user)
      && (r.1.body.todos.None? <==> |Store.GetTodosByUser(db, env, user).0| == 0)
      && (r.1.body.todos.Some? ==> r.1.body.todos.value == Store.GetTodosByUser(db, env, user).0)
      && (r.1.body.todos.Some? ==> forall i :: 0 <= i < |r.1.body.todos.value| ==> r.1.body.todos.value[i].userId == user.id)
  {
    match Authorize(db, env, req)
    case Err(resp) => (db, resp)
    case Ok(user) =>
      var (todos, err) := Store.GetTodosByUser(db, env, user);
      if err.Some? then (db, Http.Error(Headers, "Failed to get todos", Http.InternalServerError))
      else (db, Http.Success(Headers, Http.TodoList(if |todos| == 0 then None else Some(todos), Http.ViewOf(user))))
  }

  // ---------------------------------------------------------------- POST /todos/save

  /** `todoSave`: a new todo owned by the session's user. */
  function TodoSave(req: Http.Request, db: Store.Db, env: Store.Env): (r: (Store.Db, Http.Response))
    ensures r.1.headers == Headers
    ensures r.1.status != Http.OK ==> r.0 == db
    ensures Authorize(db, env, req).Err? ==> r.1 == Authorize(db, env, req).error
    ensures Authorize(db, env, req).Ok? && ReadJson(req.body, SaveKeys).Err? ==> r.1 == ReadJson(req.body, SaveKeys).error
    ensures r.1.status == Http.OK <==> Authorize(db, env, req).Ok? && ReadJson(req.body, SaveKeys).Ok? && Store.InsertTodo !in env.faults
    ensures Authorize(db, env, req).Ok? && ReadJson(req.body, SaveKeys).Ok? && Store.InsertTodo in env.faults ==>
      r.1 == Http.Error(Headers, "Failed to create todo", Http.InternalServerError)
    ensures r.1.status == Http.OK ==>
      && r.1 == Message("Todo created successfully")
      && var f := ReadJson(req.body, SaveKeys).value;
         r.0 == Store.CreateTodo(db, env, Authorize(db, env, req).value, f[0], f[1], f[2]).value
  {
    match Authorize(db, env, req)
    case Err(resp) => (db, resp)
    case Ok(user) =>
      match ReadJson(req.body, SaveKeys)
      case Err(resp) => (db, resp)
      case Ok(f) =>
        match Store.CreateTodo(db, env, user, f[0], f[1], f[2])
        case Err(_) => (db, Http.Error(Headers, "Failed to create todo", Http.InternalServerError))
        case Ok(db') => (db', Message("Todo created successfully"))
  }

  // ---------------------------------------------------------------- POST /todos/update/{id}

  /** The record `todoUpdate` writes: blank priority, status and due date take their defaults, and
      the owner is whoever is signed in. */
  function UpdateRecord(id: int, user: Store.UserRow, f: seq<string>, env: Store.Env): (t: Store.Todo)
    requires |f| == 4
    ensures t.id == id && t.content == f[0] && t.userId == user.id
    ensures t.priority != "" && t.status != ""
    ensures f[1] != "" ==> t.priority == f[1]
    ensures f[2] != "" ==> t.status == f[2]
    ensures f[3] != "" ==> t.dueDate == f[3]
    ensures f[1] == "" ==> t.priority == "medium"
    ensures f[2] == "" ==> t.status == "todo"
    ensures f[3] == "" ==> t.dueDate == env.today
  {
    Store.Todo(id, f[0], user.id,
      if f[1] == "" then "medium" else f[1],
      if f[2] == "" then "todo" else f[2],
      if f[3] == "" then env.today else f[3], 0)
  }

  /** `todoUpdate`. No check that the row belongs to the signed-in user: whoever updates a row
      becomes its owner, and an id with no row succeeds without changing anything. */
  function TodoUpdate(req: Http.Request, db: Store.Db, env: Store.Env, id: int): (r: (Store.Db, Http.Response))
    ensures r.1.headers == Headers
    ensures r.1.status != Http.OK ==> r.0 == db
    ensures Authorize(db, env, req).Err? ==> r.1 == Authorize(db, env, req).error
    ensures Authorize(db, env, req).Ok? && ReadJson(req.body, UpdateKeys).Err? ==> r.1 == ReadJson(req.body, UpdateKeys).error
    ensures r.1.status == Http.OK <==> Authorize(db, env, req).Ok? && ReadJson(req.body, UpdateKeys).Ok? && Store.UpdateTodoRow !in env.faults
    ensures Authorize(db, env, req).Ok? && ReadJson(req.body, UpdateKeys).Ok? && Store.UpdateTodoRow in env.faults ==>
      r.1 == Http.Error(Headers, "Failed to update todo", Http.InternalServerError)
    ensures r.1.status == Http.OK ==>
      && r.1 == Message("Todo updated successfully")
      && r.0.(todos := db.todos) == db && |r.0.todos| == |db.todos|
      && var t := UpdateRecord(id, Authorize(db, env, req).value, ReadJson(req.body, UpdateKeys).value, env);
         forall i :: 0 <= i < |db.todos| ==>
           r.0.todos[i] == if db.todos[i].id == id
             then db.todos[i].(content := Some(t.content), userId := Some(t.userId), priority := Some(t.priority),
                               status := Some(t.status), dueDate := Some(t.dueDate))
             else db.todos[i]
  {
    match Authorize(db, env, req)
    case Err(resp) => (db, resp)
    case Ok(user) =>
      match ReadJson(req.body, UpdateKeys)
      case Err(resp) => (db, resp)
      case Ok(f) =>
        match Store.UpdateTodo(db, env, UpdateRecord(id, user, f, env))
        case Err(_) => (db, Http.Error(Headers, "Failed to update todo", Http.InternalServerError))
        case Ok(db') => (db', Message("Todo updated successfully"))
  }

  // ---------------------------------------------------------------- POST /todos/delete/{id}

  /** `todoDelete`: the signed-in user is looked up and then ignored; any existing todo can go. */
  function TodoDelete(req: Http.Request, db: Store.Db, env: Store.Env, id: int): (r: (Store.Db, Http.Response))
    ensures r.1.headers == Headers
    ensures r.1.status != Http.OK ==> r.0 == db
    ensures Authorize(db, env, req).Err? ==> r.1 == Authorize(db, env, req).error
    ensures Authorize(db, env, req).Ok? && Store.GetTodo(db, env, id).Err? ==> r.1 == Http.Error(Headers, "Todo not found", Http.NotFound)
    ensures Authorize(db, env, req).Ok? && Store.SelectTodoById !in env.faults && (forall i :: 0 <= i < |db.todos| ==> db.todos[i].id != id)
      ==> r.1.status == Http.NotFound
    ensures r.1.status == Http.OK <==> Authorize(db, env, req).Ok? && Store.GetTodo(db, env, id).Ok? && Store.DeleteTodoRow !in env.faults
    ensures r.1.status == Http.OK ==>
      && r.1 == Message("Todo deleted successfully")
      && (exists i :: 0 <= i < |db.todos| && db.todos[i].id == id)
      && (forall x :: x in r.0.todos <==> x in db.todos && x.id != id)
      && r.0.(todos := db.todos) == db
  {
    match Authorize(db, env, req)
    case Err(resp) => (db, resp)
    case Ok(_) =>
      match Store.GetTodo(db, env, id)
      case Err(_) => (db, Http.Error(Headers, "Todo not found", Http.NotFound))
      case Ok(t) =>
        match Store.DeleteTodo(db, env, t.id)
        case Err(_) => (db, Http.Error(Headers, "Failed to delete todo", Http.InternalServerError))
        case Ok(db') => (db', Message("Todo deleted successfully"))
  }

  /** Deleting an existing todo succeeds for any signed-in user, whoever owns it, when every row
      reads back (as every row the application writes does). */
  lemma TodoDeleteRemovesExisting(req: Http.Request, db: Store.Db, env: Store.Env, id: int)
    requires Authorize(db, env, req).Ok?
    requires Store.SelectTodoById !in env.faults && Store.DeleteTodoRow !in env.faults
    requires Store.AllScannable(db)
    requires exists i :: 0 <= i < |db.todos| && db.todos[i].id == id
    ensures TodoDelete(req, db, env, id).1 == Message("Todo deleted successfully")
    ensures forall x :: x in TodoDelete(req, db, env, id).0.todos <==> x in db.todos && x.id != id
  {
    var k := Seqs.FindFirst(db.todos, Store.TodoWithId(id)).value;
    assert Store.Scannable(db.todos[k]);
    assert Store.GetTodo(db, env, id).Ok?;
  }
}

=== FILE: seqs.dfy ===
/** Order-preserving filtering of sequences, the operation behind every list view. */
module Seqs {
  import opened Common

  /** Keeps the elements satisfying `p`, in their original order (JavaScript `Array.filter`). */
  function Filter<T(!new)>(s: seq<T>, p: T -> bool): (r: seq<T>)
    ensures |r| <= |s|
    ensures forall x :: x in r <==> x in s && p(x)
    decreases |s|
  {
    if |s| == 0 then [] else (if p(s[0]) then [s[0]] else []) + Filter(s[1..], p)
  }

  /** Filtering distributes over appending one element at the end. */
  lemma {:induction false} FilterSnoc<T(!new)>(s: seq<T>, x: T, p: T -> bool)
    ensures Filter(s + [x], p) == Filter(s, p) + (if p(x) then [x] else [])
    decreases |s|
  {
    if |s| == 0 {
      assert s + [x] == [x];
    } else {
      assert (s + [x])[1..] == s[1..] + [x];
      FilterSnoc(s[1..], x, p);
    }
  }

  /** `a` can be obtained from `b` by deleting elements: `a`'s elements occur in `b` in the same order. */
  predicate IsSubseq<T(==)>(a: seq<T>, b: seq<T>)
    decreases |b|
  {
    if |a| == 0 then true
    else if |b| == 0 then false
    else (a[0] == b[0] && IsSubseq(a[1..], b[1..])) || IsSubseq(a, b[1..])
  }

  /** Filtering never reorders. */
  lemma {:induction false} FilterIsSubseq<T(!new)>(s: seq<T>, p: T -> bool)
    ensures IsSubseq(Filter(s, p), s)
    decreases |s|
  {
    if |s| > 0 {
      FilterIsSubseq(s[1..], p);
      var r := Filter(s, p);
      if p(s[0]) {
        assert r[0] == s[0] && r[1..] == Filter(s[1..], p);
      } else {
        assert r == Filter(s[1..], p);
      }
    }
  }

  lemma {:induction false} SubseqRefl<T(!new)>(s: seq<T>)
    ensures IsSubseq(s, s)
    decreases |s|
  {
    if |s| > 0 {
      SubseqRefl(s[1..]);
    }
  }

  /** Subsequence is transitive, so filters of filters stay in order. */
  lemma {:induction false} SubseqTrans<T(!new)>(a: seq<T>, b: seq<T>, c: seq<T>)
    requires IsSubseq(a, b) && IsSubseq(b, c)
    ensures IsSubseq(a, c)
    decreases |c|, |b|
  {
    if |a| > 0 && |c| > 0 {
      if |b| > 0 && b[0] == c[0] && IsSubseq(b[1..], c[1..]) {
        if a[0] == b[0] && IsSubseq(a[1..], b[1..]) {
          SubseqTrans(a[1..], b[1..], c[1..]);
        } else {
          SubseqTrans(a, b[1..], c[1..]);
        }
      } else {
        SubseqTrans(a, b, c[1..]);
      }
    }
  }

  /** Each element is kept with its full multiplicity when `p` holds of it, and dropped entirely otherwise. */
  lemma {:induction false} FilterMultiplicity<T(!new)>(s: seq<T>, p: T -> bool, x: T)
    ensures multiset(Filter(s, p))[x] == if p(x) then multiset(s)[x] else 0
    decreases |s|
  {
    if |s| > 0 {
      FilterMultiplicity(s[1..], p, x);
      assert s == [s[0]] + s[1..];
      assert multiset(s) == multiset([s[0]]) + multiset(s[1..]);
    }
  }

  /** Two complementary filters split a sequence: every element goes to exactly one side. */
  lemma {:induction false} FilterPartition<T(!new)>(s: seq<T>, p: T -> bool, q: T -> bool)
    requires forall x :: q(x) <==> !p(x)
    ensures multiset(Filter(s, p)) + multiset(Filter(s, q)) == multiset(s)
    ensures |Filter(s, p)| + |Filter(s, q)| == |s|
    decreases |s|
  {
    if |s| > 0 {
      FilterPartition(s[1..], p, q);
      assert s == [s[0]] + s[1..];
      assert multiset(s) == multiset([s[0]]) + multiset(s[1..]);
    }
  }

  /** Filtering by `p` then by `q` is filtering by both. */
  lemma {:induction false} FilterFilter<T(!new)>(s: seq<T>, p: T -> bool, q: T -> bool, pq: T -> bool)
    requires forall x :: pq(x) <==> p(x) && q(x)
    ensures Filter(Filter(s, p), q) == Filter(s, pq)
    decreases |s|
  {
    if |s| > 0 {
      FilterFilter(s[1..], p, q, pq);
      if p(s[0]) {
        assert Filter(s, p) == [s[0]] + Filter(s[1..], p);
        assert Filter(s, p)[1..] == Filter(s[1..], p);
      } else {
        assert Filter(s, p) == Filter(s[1..], p);
      }
    }
  }

  /** Filters that agree on every element of `s` give the same result. */
  lemma {:induction false} FilterCongruent<T(!new)>(s: seq<T>, p: T -> bool, q: T -> bool)
    requires forall i :: 0 <= i < |s| ==> (p(s[i]) <==> q(s[i]))
    ensures Filter(s, p) == Filter(s, q)
    decreases |s|
  {
    if |s| > 0 {
      assert p(s[0]) <==> q(s[0]);
      forall i | 0 <= i < |s[1..]|
        ensures p(s[1..][i]) <==> q(s[1..][i])
      {
        assert s[1..][i] == s[i + 1];
      }
      FilterCongruent(s[1..], p, q);
    }
  }

  /** A filter that holds of every element changes nothing. */
  lemma {:induction false} FilterAll<T(!new)>(s: seq<T>, p: T -> bool)
    requires forall i :: 0 <= i < |s| ==> p(s[i])
    ensures Filter(s, p) == s
    decreases |s|
  {
    if |s| > 0 {
      assert p(s[0]);
      forall i | 0 <= i < |s[1..]|
        ensures p(s[1..][i])
      {
        assert s[1..][i] == s[i + 1];
      }
      FilterAll(s[1..], p);
      assert s == [s[0]] + s[1..];
    }
  }

  /** Later elements of a subsequence are elements of the whole. */
  lemma {:induction false} SubseqMember<T(!new)>(a: seq<T>, b: seq<T>, k: int)
    requires IsSubseq(a, b) && 0 <= k < |a|
    ensures a[k] in b
    decreases |b|
  {
    if a[0] == b[0] && IsSubseq(a[1..], b[1..]) {
      if k > 0 {
        SubseqMember(a[1..], b[1..], k - 1);
      }
    } else {
      SubseqMember(a, b[1..], k);
    }
  }

  /** `R` holds of every pair of elements taken in sequence order. */
  predicate Pairwise<T>(s: seq<T>, R: (T, T) -> bool) {
    forall i, j :: 0 <= i < j < |s| ==> R(s[i], s[j])
  }

  /** Deleting elements keeps every pairwise ordering property. */
  lemma {:induction false} SubseqPairwise<T(!new)>(a: seq<T>, b: seq<T>, R: (T, T) -> bool)
    requires IsSubseq(a, b) && Pairwise(b, R)
    ensures Pairwise(a, R)
    decreases |b|
  {
    if |a| > 0 {
      if a[0] == b[0] && IsSubseq(a[1..], b[1..]) {
        SubseqPairwise(a[1..], b[1..], R);
        forall k | 0 < k < |a|
          ensures R(a[0], a[k])
        {
          SubseqMember(a[1..], b[1..], k - 1);
          var m :| 0 <= m < |b[1..]| && b[1..][m] == a[k];
          assert b[m + 1] == a[k];
        }
        forall i, j | 0 < i < j < |a|
          ensures R(a[i], a[j])
        {
          assert a[i] == a[1..][i - 1] && a[j] == a[1..][j - 1];
        }
      } else {
        SubseqPairwise(a, b[1..], R);
      }
    }
  }

  /** The position of the first element satisfying `p`, as a full table scan finds it. */
  function FindFirst<T>(s: seq<T>, p: T -> bool): (k: Option<nat>)
    ensures k.None? <==> forall j :: 0 <= j < |s| ==> !p(s[j])
    ensures k.Some? ==> k.value < |s| && p(s[k.value]) && forall j :: 0 <= j < k.value ==> !p(s[j])
    decreases |s|
  {
    if |s| == 0 then None
    else if p(s[0]) then Some(0)
    else
      match FindFirst(s[1..], p)
      case None => None
      case Some(k) =>
        assert forall j :: 0 < j <= k ==> s[j] == s[1..][j - 1];
        Some(k + 1)
  }

  function Map<T, U>(s: seq<T>, f: T -> U): (r: seq<U>)
    ensures |r| == |s|
    ensures forall i :: 0 <= i < |s| ==> r[i] == f(s[i])
  {
    seq(|s|, i requires 0 <= i < |s| => f(s[i]))
  }
}

=== FILE: server.dfy ===
/** `server.go`: the CORS wrapper, the cookie session check and the id-carrying path parser. */
module Server {
  import opened Common
  import Seqs
  import Text
  import Store
  import Http

  const CookieName := "_cookie"

  /** The four headers every wrapped route sets before anything else. */
  const CorsHeaders: map<string, string> := map[
    "Access-Control-Allow-Origin" := "http://localhost:5173",
    "Access-Control-Allow-Credentials" := "true",
    "Access-Control-Allow-Methods" := "GET, POST, PUT, DELETE, OPTIONS",
    "Access-Control-Allow-Headers" := "Content-Type"]

  /** The wrapped handler, given the request, the store and the environment. */
  type Handler = (Http.Request, Store.Db, Store.Env) -> (Store.Db, Http.Response)

  /** `corsMiddleware`: a preflight `OPTIONS` is answered 200 without running the handler. */
  function Cors(next: Handler, req: Http.Request, db: Store.Db, env: Store.Env): (r: (Store.Db, Http.Response))
    ensures req.verb == "OPTIONS" ==> r == (db, Http.Response(Http.OK, CorsHeaders, None, Http.NoBody))
    ensures req.verb != "OPTIONS" ==> r == next(req, db, env)
  {
    if req.verb == "OPTIONS" then (db, Http.Response(Http.OK, CorsHeaders, None, Http.NoBody))
    else next(req, db, env)
  }

  datatype SessionError = NoCookie | InvalidSession

  /** `session`: the cookie's UUID must name a stored session; why the lookup failed is dropped. */
  function Session(db: Store.Db, env: Store.Env, cookie: Option<string>): (r: Result<Store.SessionRow, SessionError>)
    ensures cookie.None? <==> r == Err(NoCookie)
    ensures cookie.Some? ==> (r.Ok? <==> Store.CheckSession(db, env, cookie.value).valid)
    ensures r.Ok? ==> r.value in db.sessions && r.value.uuid == cookie.value
  {
    match cookie
    case None => Err(NoCookie)
    case Some(uuid) =>
      var check := Store.CheckSession(db, env, uuid);
      if check.valid then Ok(check.session) else Err(InvalidSession)
  }

  // ---------------------------------------------------------------- ^/todos/(edit|update|delete)/([0-9]+)/?$

  const TodosPrefix := "/todos/"
  const Actions: set<string> := {"edit", "update", "delete"}

  /** The shape the regular expression accepts, stated directly. */
  predicate PathShape(path: string, action: string, digits: string) {
    && action in Actions && |digits| > 0 && Text.IsDigits(digits)
    && (path == TodosPrefix + action + "/" + digits || path == TodosPrefix + action + "/" + digits + "/")
  }

  function IsSlash(c: char): bool { c == '/' }

  /** The hand-written recogniser: the action and the digit group, or nothing. */
  function MatchTodoPath(path: string): (r: Option<(string, string)>)
    ensures r.Some? ==> r.value.0 in Actions && |r.value.1| > 0 && Text.IsDigits(r.value.1)
    ensures r.Some? ==> |path| >= |TodosPrefix| && path[..|TodosPrefix|] == TodosPrefix
  {
    if |path| < |TodosPrefix| || path[..|TodosPrefix|] != TodosPrefix then None
    else MatchRest(path[|TodosPrefix|..])
  }

  /** Everything after `/todos/`: the action up to the first slash, then the digits. */
  function MatchRest(rest: string): Option<(string, string)> {
    match Seqs.FindFirst(rest, IsSlash)
    case None => None
    case Some(k) =>
      var action := rest[..k];
      var digits := DropTrailingSlash(rest[k + 1..]);
      if action in Actions && |digits| > 0 && Text.IsDigits(digits) then Some((action, digits)) else None
  }

  /** The optional `/?` at the end. */
  function DropTrailingSlash(tail: string): string {
    if |tail| > 0 && tail[|tail| - 1] == '/' then tail[..|tail| - 1] else tail
  }

  /** The recogniser accepts exactly the paths of that shape, and returns their parts. */
  lemma MatchTodoPathSound(path: string)
    ensures MatchTodoPath(path).Some? ==> PathShape(path, MatchTodoPath(path).value.0, MatchTodoPath(path).value.1)
  {
    var r := MatchTodoPath(path);
    if r.Some? {
      var rest := path[|TodosPrefix|..];
      var k := Seqs.FindFirst(rest, IsSlash).value;
      var tail := rest[k + 1..];
      assert path == TodosPrefix + rest[..k] + "/" + tail;
      if |tail| > 0 && tail[|tail| - 1] == '/' {
        assert tail == tail[..|tail| - 1] + "/";
      }
    }
  }

  lemma MatchTodoPathComplete(path: string, action: string, digits: string)
    requires PathShape(path, action, digits)
    ensures MatchTodoPath(path) == Some((action, digits))
  {
    var suffix := if path == TodosPrefix + action + "/" + digits then digits else digits + "/";
    var rest := action + "/" + suffix;
    assert path == TodosPrefix + rest;
    assert path[..|TodosPrefix|] == TodosPrefix && path[|TodosPrefix|..] == rest;
    MatchRestComplete(action, suffix, digits);
  }

  lemma MatchRestComplete(action: string, suffix: string, digits: string)
    requires action in Actions && |digits| > 0 && Text.IsDigits(digits)
    requires suffix == digits || suffix == digits + "/"
    ensures MatchRest(action + "/" + suffix) == Some((action, digits))
  {
    var rest := action + "/" + suffix;
    assert action == "edit" || action == "update" || action == "delete";
    SlashAfter(action, suffix);
    assert rest[..|action|] == action && rest[|action| + 1..] == suffix;
    if suffix == digits {
      assert Text.IsDigit(digits[|digits| - 1]);
    } else {
      assert suffix[..|suffix| - 1] == digits;
    }
  }

  /** The first slash of `a + "/" + b` is the one after `a` when `a` has none. */
  lemma SlashAfter(a: string, b: string)
    requires forall j :: 0 <= j < |a| ==> a[j] != '/'
    ensures Seqs.FindFirst(a + "/" + b, IsSlash) == Some(|a|)
  {
    var s := a + "/" + b;
    assert IsSlash(s[|a|]);
    assert forall j :: 0 <= j < |a| ==> !IsSlash(s[j]);
  }

  // ---------------------------------------------------------------- strconv.Atoi

  /** The largest `int` of a 64-bit Go build. */
  const MaxInt := 0x7FFF_FFFF_FFFF_FFFF

  /** `strconv.Atoi` on a string of digits: its value, or a range error beyond `MaxInt`. */
  function Atoi(digits: string): (r: Option<int>)
    requires Text.IsDigits(digits)
    ensures r.Some? <==> Text.DecimalValue(digits) <= MaxInt
    ensures r.Some? ==> r.value == Text.DecimalValue(digits) && 0 <= r.value
  {
    var v := Text.DecimalValue(digits);
    if v <= MaxInt then Some(v) else None
  }

  /** `parseURL`: the id a path carries, or `None` for a 404. */
  function ParseUrl(path: string): (r: Option<int>)
    ensures r.Some? <==> exists a, d :: PathShape(path, a, d) && Text.DecimalValue(d) <= MaxInt
    ensures forall a, d :: PathShape(path, a, d) && Text.DecimalValue(d) <= MaxInt ==> r == Some(Text.DecimalValue(d))
  {
    MatchTodoPathSound(path);
    forall a, d | PathShape(path, a, d) ensures MatchTodoPath(path) == Some((a, d)) {
      MatchTodoPathComplete(path, a, d);
    }
    match MatchTodoPath(path)
    case None => None
    case Some(m) => Atoi(m.1)
  }

  /** `parseURL` wrapped around an id handler: a 404 with the headers already set, or the handler. */
  function WithId(fn: (Http.Request, Store.Db, Store.Env, int) -> (Store.Db, Http.Response),
                  headers: map<string, string>, req: Http.Request, db: Store.Db, env: Store.Env): (r: (Store.Db, Http.Response))
    ensures ParseUrl(req.path).None? ==> r == (db, Http.Error(headers, "404 page not found", Http.NotFound))
    ensures ParseUrl(req.path).Some? ==> r == fn(req, db, env, ParseUrl(req.path).value)
  {
    match ParseUrl(req.path)
    case None => (db, Http.Error(headers, "404 page not found", Http.NotFound))
    case Some(id) => fn(req, db, env, id)
  }

  function Zeros(k: nat): (r: string)
    ensures |r| == k && Text.IsDigits(r)
  {
    if k == 0 then "" else "0" + Zeros(k - 1)
  }

  /** The id printed in decimal comes back from every action's path, with or without the
      trailing slash and with any number of leading zeros. */
  lemma ParseUrlOfNumeral(action: string, n: nat, zeros: nat, slash: bool)
    requires action in Actions && n <= MaxInt
    ensures ParseUrl(TodosPrefix + action + "/" + (Zeros(zeros) + Text.NatToString(n)) + (if slash then "/" else "")) == Some(n)
  {
    var digits := Zeros(zeros) + Text.NatToString(n);
    LeadingZerosValue(zeros, Text.NatToString(n));
    Text.DecimalValueOfNatToString(n);
    var path := TodosPrefix + action + "/" + digits + (if slash then "/" else "");
    assert PathShape(path, action, digits);
    MatchTodoPathComplete(path, action, digits);
  }

  lemma {:induction false} LeadingZerosValue(zeros: nat, s: string)
    requires Text.IsDigits(s)
    ensures Text.IsDigits(Zeros(zeros) + s)
    ensures Text.DecimalValue(Zeros(zeros) + s) == Text.DecimalValue(s)
    decreases zeros
  {
    if zeros > 0 {
      LeadingZerosValue(zeros - 1, s);
      var t := Zeros(zeros - 1) + s;
      assert Zeros(zeros) + s == "0" + t;
      Text.DecimalValueLeadingZero(t);
      assert Text.DecimalValue(Zeros(zeros) + s) == Text.DecimalValue("0" + t);
    } else {
      assert Zeros(zeros) + s == s;
    }
  }
}

=== FILE: store.dfy ===
/** The backend's three SQLite tables and the model functions over them. A table is the
    sequence of its rows in rowid order, which is the order SQLite's full-table scans return;
    AUTOINCREMENT is the largest id ever handed out. The environment supplies what the Go code
    takes from the outside world: the hash, the fresh UUID, the clock, and the statements
    that fail with an I/O fault. */
module Store {
  import opened Common
  import Seqs

  /** One tag per SQL statement of the model functions. */
  datatype Stmt =
    | InsertUser | UpdateUserRow | DeleteUserRow | SelectUserByEmail | SelectUserById
    | InsertSession | SelectSessionByUser | SelectSessionByUuid | DeleteSessionRows
    | InsertTodo | SelectTodoById | SelectTodosByUser | UpdateTodoRow | DeleteTodoRow

  datatype DbError = NoRows | UniqueViolation | NullScan | IoFault(stmt: Stmt)

  /** `encrypt` stands for the SHA-1 hex digest (any deterministic function); `uuid` is the value
      `createUUID` returns; `today` is Go's local date and `sqlToday` SQLite's `date('now')`. */
  datatype Env = Env(
    encrypt: string -> string, uuid: string, now: int, today: string, sqlToday: string, faults: set<Stmt>)

  datatype UserRow = UserRow(id: int, uuid: string, name: string, email: string, password: string, createdAt: int)

  datatype SessionRow = SessionRow(id: int, uuid: string, email: string, userId: int, createdAt: int)

  /** A todos row; the nullable columns the Go code reads are options. */
  datatype TodoRow = TodoRow(
    id: int, content: Option<string>, userId: Option<int>, priority: Option<string>,
    status: Option<string>, dueDate: Option<string>, createdAt: Option<int>)

  /** A todo as the Go code holds it after a read. */
  datatype Todo = Todo(
    id: int, content: string, userId: int, priority: string, status: string, dueDate: string, createdAt: int)

  datatype Db = Db(
    users: seq<UserRow>, sessions: seq<SessionRow>, todos: seq<TodoRow>,
    userSeq: nat, sessionSeq: nat, todoSeq: nat)

  // ---------------------------------------------------------------- well-formedness

  predicate UserBefore(x: UserRow, y: UserRow) { x.id < y.id && x.uuid != y.uuid }
  predicate SessionBefore(x: SessionRow, y: SessionRow) { x.id < y.id && x.uuid != y.uuid }
  predicate TodoBefore(x: TodoRow, y: TodoRow) { x.id < y.id }

  /** Ids ascend in rowid order and never exceed the AUTOINCREMENT counter; UUIDs are UNIQUE. */
  predicate WF(db: Db) {
    && Seqs.Pairwise(db.users, UserBefore)
    && Seqs.Pairwise(db.sessions, SessionBefore)
    && Seqs.Pairwise(db.todos, TodoBefore)
    && (forall i :: 0 <= i < |db.users| ==> 1 <= db.users[i].id <= db.userSeq)
    && (forall i :: 0 <= i < |db.sessions| ==> 1 <= db.sessions[i].id <= db.sessionSeq)
    && (forall i :: 0 <= i < |db.todos| ==> 1 <= db.todos[i].id <= db.todoSeq)
  }

  const Empty := Db([], [], [], 0, 0, 0)

  /** In a well-formed store a session UUID and a user id each name at most one row. */
  lemma WFUnique(db: Db)
    requires WF(db)
    ensures forall i, k :: 0 <= i < |db.sessions| && 0 <= k < |db.sessions| && db.sessions[i].uuid == db.sessions[k].uuid ==> i == k
    ensures forall i, k :: 0 <= i < |db.users| && 0 <= k < |db.users| && db.users[i].id == db.users[k].id ==> i == k
  {
  }

  // ---------------------------------------------------------------- users

  function UserWithUuid(uuid: string): UserRow -> bool { (u: UserRow) => u.uuid == uuid }
  function UserWithEmail(email: string): UserRow -> bool { (u: UserRow) => u.email == email }
  function UserWithId(id: int): UserRow -> bool { (u: UserRow) => u.id == id }

  /** `CreateUser`: inserts the hashed password under a fresh UUID, never the plaintext. */
  function CreateUser(db: Db, env: Env, name: string, email: string, password: string): (r: Result<Db, DbError>)
    ensures InsertUser in env.faults ==> r == Err(IoFault(InsertUser))
    ensures r.Err? <==> InsertUser in env.faults || exists i :: 0 <= i < |db.users| && db.users[i].uuid == env.uuid
    ensures r.Ok? ==>
      && r.value.users == db.users + [UserRow(db.userSeq + 1, env.uuid, name, email, env.encrypt(password), env.now)]
      && r.value.sessions == db.sessions && r.value.todos == db.todos
    ensures r.Ok? && WF(db) ==> WF(r.value)
  {
    if InsertUser in env.faults then Err(IoFault(InsertUser))
    else if Seqs.FindFirst(db.users, UserWithUuid(env.uuid)).Some? then Err(UniqueViolation)
    else
      var row := UserRow(db.userSeq + 1, env.uuid, name, email, env.encrypt(password), env.now);
      Ok(db.(users := db.users + [row], userSeq := db.userSeq + 1))
  }

  /** `GetUserByEmail`: the first user with that email (emails are not unique). */
  function GetUserByEmail(db: Db, env: Env, email: string): (r: Result<UserRow, DbError>)
    ensures SelectUserByEmail in env.faults ==> r == Err(IoFault(SelectUserByEmail))
    ensures SelectUserByEmail !in env.faults ==>
      (r == Err(NoRows) <==> forall i :: 0 <= i < |db.users| ==> db.users[i].email != email)
    ensures r.Ok? ==> r.value.email == email
    ensures r.Ok? ==> exists i :: 0 <= i < |db.users| && db.users[i] == r.value && forall j :: 0 <= j < i ==> db.users[j].email != email
  {
    if SelectUserByEmail in env.faults then Err(IoFault(SelectUserByEmail))
    else
      match Seqs.FindFirst(db.users, UserWithEmail(email))
      case None => Err(NoRows)
      case Some(k) => Ok(db.users[k])
  }

  /** `UpdateUser`: rewrites name and email of row `u.id`, nothing else. */
  function UpdateUser(db: Db, env: Env, u: UserRow): (r: Result<Db, DbError>)
    ensures r.Err? <==> UpdateUserRow in env.faults
    ensures r.Ok? ==>
      && |r.value.users| == |db.users|
      && (forall i :: 0 <= i < |db.users| && db.users[i].id != u.id ==> r.value.users[i] == db.users[i])
      && (forall i :: 0 <= i < |db.users| && db.users[i].id == u.id ==>
            r.value.users[i] == db.users[i].(name := u.name, email := u.email))
      && r.value.(users := db.users) == db
    ensures r.Ok? && WF(db) ==> WF(r.value)
  {
    if UpdateUserRow in env.faults then Err(IoFault(UpdateUserRow))
    else
      var users := Seqs.Map(db.users, (row: UserRow) => if row.id == u.id then row.(name := u.name, email := u.email) else row);
      Ok(db.(users := users))
  }

  /** `DeleteUser`: removes row `u.id` only; the user's sessions and todos stay. */
  function DeleteUser(db: Db, env: Env, u: UserRow): (r: Result<Db, DbError>)
    ensures r.Err? <==> DeleteUserRow in env.faults
    ensures r.Ok? ==>
      && (forall x :: x in r.value.users <==> x in db.users && x.id != u.id)
      && Seqs.IsSubseq(r.value.users, db.users)
      && r.value.(users := db.users) == db
    ensures r.Ok? && WF(db) ==> WF(r.value)
  {
    if DeleteUserRow in env.faults then Err(IoFault(DeleteUserRow))
    else
      var keep := (row: UserRow) => row.id != u.id;
      Seqs.FilterIsSubseq(db.users, keep);
      if WF(db) then Seqs.SubseqPairwise(Seqs.Filter(db.users, keep), db.users, UserBefore); Ok(db.(users := Seqs.Filter(db.users, keep)))
      else Ok(db.(users := Seqs.Filter(db.users, keep)))
  }

  // ---------------------------------------------------------------- sessions

  function SessionWithUuid(uuid: string): SessionRow -> bool { (s: SessionRow) => s.uuid == uuid }
  function SessionOf(userId: int, email: string): SessionRow -> bool { (s: SessionRow) => s.userId == userId && s.email == email }

  /** The insert half of `CreateSession`; a failure is only logged. */
  function InsertSessionRow(db: Db, env: Env, u: UserRow): (r: Db)
    ensures r.users == db.users && r.todos == db.todos
    ensures r == db || r.sessions == db.sessions + [SessionRow(db.sessionSeq + 1, env.uuid, u.email, u.id, env.now)]
    ensures r != db <==> InsertSession !in env.faults && forall i :: 0 <= i < |db.sessions| ==> db.sessions[i].uuid != env.uuid
    ensures WF(db) ==> WF(r)
  {
    if InsertSession in env.faults || Seqs.FindFirst(db.sessions, SessionWithUuid(env.uuid)).Some? then db
    else db.(sessions := db.sessions + [SessionRow(db.sessionSeq + 1, env.uuid, u.email, u.id, env.now)],
             sessionSeq := db.sessionSeq + 1)
  }

  /** `CreateSession`: inserts a session, then returns the first session of `(u.id, u.email)` in
      rowid order, which is the new one only when the user had none before. */
  function CreateSession(db: Db, env: Env, u: UserRow): (r: (Db, Result<SessionRow, DbError>))
    ensures r.0 == InsertSessionRow(db, env, u)
    ensures SelectSessionByUser in env.faults ==> r.1 == Err(IoFault(SelectSessionByUser))
    ensures r.1.Ok? ==> r.1.value in r.0.sessions && r.1.value.userId == u.id && r.1.value.email == u.email
    ensures SelectSessionByUser !in env.faults && r.0 != db
         && (forall i :: 0 <= i < |db.sessions| ==> !(db.sessions[i].userId == u.id && db.sessions[i].email == u.email))
         ==> r.1 == Ok(SessionRow(db.sessionSeq + 1, env.uuid, u.email, u.id, env.now))
  {
    var db' := InsertSessionRow(db, env, u);
    assert db' != db ==> SessionOf(u.id, u.email)(db'.sessions[|db.sessions|]);
    if SelectSessionByUser in env.faults then (db', Err(IoFault(SelectSessionByUser)))
    else
      match Seqs.FindFirst(db'.sessions, SessionOf(u.id, u.email))
      case None =>
        (db', Err(NoRows))
      case Some(k) => (db', Ok(db'.sessions[k]))
  }

  /** What `CheckSession` leaves behind: validity, the scanned session (only the UUID when
      nothing was found), and the error the caller discards. */
  datatype SessionCheck = SessionCheck(valid: bool, session: SessionRow, err: Option<DbError>)

  /** `CheckSession`: valid iff the first row with that UUID exists and its id is not 0; in a
      well-formed table ids start at 1, so valid iff the UUID is stored. */
  function CheckSession(db: Db, env: Env, uuid: string): (r: SessionCheck)
    ensures r.valid ==> SelectSessionByUuid !in env.faults && r.session in db.sessions && r.session.uuid == uuid
    ensures WF(db) ==> (r.valid <==> (SelectSessionByUuid !in env.faults &&
      exists i :: 0 <= i < |db.sessions| && db.sessions[i].uuid == uuid))
    ensures !r.valid ==> r.session.uuid == uuid
    ensures SelectSessionByUuid in env.faults ==> r.err == Some(IoFault(SelectSessionByUuid))
    ensures SelectSessionByUuid !in env.faults && (forall i :: 0 <= i < |db.sessions| ==> db.sessions[i].uuid != uuid)
      ==> r == SessionCheck(false, SessionRow(0, uuid, "", 0, 0), Some(NoRows))
  {
    var blank := SessionRow(0, uuid, "", 0, 0);
    if SelectSessionByUuid in env.faults then SessionCheck(false, blank, Some(IoFault(SelectSessionByUuid)))
    else
      match Seqs.FindFirst(db.sessions, SessionWithUuid(uuid))
      case None => SessionCheck(false, blank, Some(NoRows))
      case Some(k) => SessionCheck(db.sessions[k].id != 0, db.sessions[k], None)
  }

  /** `DeleteSessionByUUID`: removes the sessions with that UUID and no others. */
  function DeleteSessionByUuid(db: Db, env: Env, uuid: string): (r: Result<Db, DbError>)
    ensures r.Err? <==> DeleteSessionRows in env.faults
    ensures r.Ok? ==>
      && (forall x :: x in r.value.sessions <==> x in db.sessions && x.uuid != uuid)
      && r.value.(sessions := db.sessions) == db
    ensures r.Ok? && WF(db) ==> WF(r.value)
  {
    if DeleteSessionRows in env.faults then Err(IoFault(DeleteSessionRows))
    else
      var keep := (row: SessionRow) => row.uuid != uuid;
      Seqs.FilterIsSubseq(db.sessions, keep);
      if WF(db) then Seqs.SubseqPairwise(Seqs.Filter(db.sessions, keep), db.sessions, SessionBefore); Ok(db.(sessions := Seqs.Filter(db.sessions, keep)))
      else Ok(db.(sessions := Seqs.Filter(db.sessions, keep)))
  }

  /** `GetUserBySession`: looks the user up by the session's `userId`. */
  function GetUserBySession(db: Db, env: Env, s: SessionRow): (r: Result<UserRow, DbError>)
    ensures SelectUserById in env.faults ==> r == Err(IoFault(SelectUserById))
    ensures SelectUserById !in env.faults ==>
      (r == Err(NoRows) <==> forall i :: 0 <= i < |db.users| ==> db.users[i].id != s.userId)
    ensures r.Ok? ==> r.value in db.users && r.value.id == s.userId
  {
    if SelectUserById in env.faults then Err(IoFault(SelectUserById))
    else
      match Seqs.FindFirst(db.users, UserWithId(s.userId))
      case None => Err(NoRows)
      case Some(k) => Ok(db.users[k])
  }

  // ---------------------------------------------------------------- todos

  function TodoWithId(id: int): TodoRow -> bool { (t: TodoRow) => t.id == id }
  function TodoOf(userId: int): TodoRow -> bool { (t: TodoRow) => t.userId == Some(userId) }

  /** `CreateTodo`: blank priority becomes `medium`, blank due date today; the status is always `todo`. */
  function CreateTodo(db: Db, env: Env, u: UserRow, content: string, priority: string, dueDate: string): (r: Result<Db, DbError>)
    ensures r.Err? <==> InsertTodo in env.faults
    ensures r.Ok? ==>
      && |r.value.todos| == |db.todos| + 1
      && (forall i :: 0 <= i < |db.todos| ==> r.value.todos[i] == db.todos[i])
      && r.value.users == db.users && r.value.sessions == db.sessions
    ensures r.Ok? ==> var row := r.value.todos[|db.todos|];
      && row.id == db.todoSeq + 1 && row.content == Some(content) && row.userId == Some(u.id)
      && row.status == Some("todo") && row.createdAt == Some(env.now)
      && row.priority == Some(if priority == "" then "medium" else priority)
      && row.dueDate == Some(if dueDate == "" then env.today else dueDate)
  {
    var p := if priority == "" then "medium" else priority;
    var d := if dueDate == "" then env.today else dueDate;
    if InsertTodo in env.faults then Err(IoFault(InsertTodo))
    else
      var row := TodoRow(db.todoSeq + 1, Some(content), Some(u.id), Some(p), Some("todo"), Some(d), Some(env.now));
      Ok(db.(todos := db.todos + [row], todoSeq := db.todoSeq + 1))
  }

  /** The new todo takes the next AUTOINCREMENT id, so the store stays well formed. */
  lemma CreateTodoKeepsWF(db: Db, env: Env, u: UserRow, content: string, priority: string, dueDate: string)
    requires WF(db) && CreateTodo(db, env, u, content, priority, dueDate).Ok?
    ensures WF(CreateTodo(db, env, u, content, priority, dueDate).value)
  {
  }

  /** Reading one row: NULL priority, status and due date are COALESCEd to `medium`, `todo` and
      SQLite's today; a NULL in a column scanned into a Go string, int or time fails the scan. */
  function ReadTodo(row: TodoRow, sqlToday: string): (r: Result<Todo, DbError>)
    ensures r.Ok? <==> row.content.Some? && row.userId.Some? && row.createdAt.Some?
    ensures r.Ok? ==>
      && r.value.id == row.id && r.value.content == row.content.value && r.value.userId == row.userId.value
      && r.value.priority == row.priority.GetOr("medium") && r.value.status == row.status.GetOr("todo")
      && r.value.dueDate == row.dueDate.GetOr(sqlToday)
    ensures r.Err? ==> r.error == NullScan
  {
    if row.content.None? || row.userId.None? || row.createdAt.None? then Err(NullScan)
    else Ok(Todo(row.id, row.content.value, row.userId.value, row.priority.GetOr("medium"),
                 row.status.GetOr("todo"), row.dueDate.GetOr(sqlToday), row.createdAt.value))
  }

  predicate Scannable(row: TodoRow) {
    row.content.Some? && row.userId.Some? && row.createdAt.Some?
  }

  /** `GetTodo`. */
  function GetTodo(db: Db, env: Env, id: int): (r: Result<Todo, DbError>)
    ensures SelectTodoById in env.faults ==> r == Err(IoFault(SelectTodoById))
    ensures r.Ok? ==> r.value.id == id && exists i :: 0 <= i < |db.todos| && ReadTodo(db.todos[i], env.sqlToday) == r
    ensures SelectTodoById !in env.faults && (forall i :: 0 <= i < |db.todos| ==> db.todos[i].id != id) ==> r == Err(NoRows)
    ensures SelectTodoById !in env.faults ==>
      forall k :: 0 <= k < |db.todos| && db.todos[k].id == id && (forall i :: 0 <= i < k ==> db.todos[i].id != id) ==>
                    r == ReadTodo(db.todos[k], env.sqlToday)
  {
    if SelectTodoById in env.faults then Err(IoFault(SelectTodoById))
    else
      match Seqs.FindFirst(db.todos, TodoWithId(id))
      case None => Err(NoRows)
      case Some(k) => ReadTodo(db.todos[k], env.sqlToday)
  }

  /** The `rows.Next()` loop: rows that fail to scan are skipped, and the error returned is the
      one left by the last row scanned. */
  function ScanRows(rows: seq<TodoRow>, sqlToday: string): (r: (seq<Todo>, Option<DbError>))
    ensures |r.0| == |Seqs.Filter(rows, Scannable)|
    ensures forall i :: 0 <= i < |r.0| ==> ReadTodo(Seqs.Filter(rows, Scannable)[i], sqlToday) == Ok(r.0[i])
    ensures |rows| == 0 ==> r.1.None?
    ensures |rows| > 0 ==> (r.1.Some? <==> !Scannable(rows[|rows| - 1]))
  {
    var err := if |rows| > 0 && !Scannable(rows[|rows| - 1]) then Some(NullScan) else None;
    (ScanList(rows, sqlToday), err)
  }

  /** The todos the loop appends: every scannable row, read, in order. */
  function ScanList(rows: seq<TodoRow>, sqlToday: string): (r: seq<Todo>)
    ensures |r| == |Seqs.Filter(rows, Scannable)|
    ensures forall i :: 0 <= i < |r| ==> ReadTodo(Seqs.Filter(rows, Scannable)[i], sqlToday) == Ok(r[i])
    decreases |rows|
  {
    if |rows| == 0 then []
    else
      var rest := ScanList(rows[1..], sqlToday);
      var later := Seqs.Filter(rows[1..], Scannable);
      if Scannable(rows[0]) then
        var r := [ReadTodo(rows[0], sqlToday).value] + rest;
        assert Seqs.Filter(rows, Scannable) == [rows[0]] + later;
        assert forall i :: 1 <= i < |r| ==> r[i] == rest[i - 1] && ([rows[0]] + later)[i] == later[i - 1];
        r
      else
        assert Seqs.Filter(rows, Scannable) == later;
        rest
  }

  /** `GetTodosByUser`: the user's rows in rowid order, read as above. */
  function GetTodosByUser(db: Db, env: Env, u: UserRow): (r: (seq<Todo>, Option<DbError>))
    ensures SelectTodosByUser in env.faults ==> r == ([], Some(IoFault(SelectTodosByUser)))
    ensures forall i :: 0 <= i < |r.0| ==> r.0[i].userId == u.id
    ensures SelectTodosByUser !in env.faults ==> r == ScanRows(Seqs.Filter(db.todos, TodoOf(u.id)), env.sqlToday)
  {
    if SelectTodosByUser in env.faults then ([], Some(IoFault(SelectTodosByUser)))
    else
      var mine := Seqs.Filter(db.todos, TodoOf(u.id));
      var r := ScanRows(mine, env.sqlToday);
      assert forall i :: 0 <= i < |r.0| ==> r.0[i].userId == u.id by {
        forall i | 0 <= i < |r.0|
          ensures r.0[i].userId == u.id
        {
          var row := Seqs.Filter(mine, Scannable)[i];
          assert row in mine;
        }
      }
      r
  }

  /** `UpdateTodo`: overwrites content, owner, priority, status and due date of row `t.id`; a
      missing id updates nothing and is not an error. */
  function UpdateTodo(db: Db, env: Env, t: Todo): (r: Result<Db, DbError>)
    ensures r.Err? <==> UpdateTodoRow in env.faults
    ensures r.Ok? ==>
      && |r.value.todos| == |db.todos|
      && (forall i :: 0 <= i < |db.todos| && db.todos[i].id != t.id ==> r.value.todos[i] == db.todos[i])
      && (forall i :: 0 <= i < |db.todos| && db.todos[i].id == t.id ==>
            r.value.todos[i] == db.todos[i].(content := Some(t.content), userId := Some(t.userId),
              priority := Some(t.priority), status := Some(t.status), dueDate := Some(t.dueDate)))
      && r.value.(todos := db.todos) == db
    ensures r.Ok? && WF(db) ==> WF(r.value)
  {
    if UpdateTodoRow in env.faults then Err(IoFault(UpdateTodoRow))
    else
      var todos := Seqs.Map(db.todos, (row: TodoRow) =>
        if row.id == t.id then row.(content := Some(t.content), userId := Some(t.userId),
          priority := Some(t.priority), status := Some(t.status), dueDate := Some(t.dueDate))
        else row);
      Ok(db.(todos := todos))
  }

  /** `DeleteTodo`: removes row `id` and no other. */
  function DeleteTodo(db: Db, env: Env, id: int): (r: Result<Db, DbError>)
    ensures r.Err? <==> DeleteTodoRow in env.faults
    ensures r.Ok? ==>
      && (forall x :: x in r.value.todos <==> x in db.todos && x.id != id)
      && r.value.(todos := db.todos) == db
    ensures r.Ok? && WF(db) ==> WF(r.value)
  {
    if DeleteTodoRow in env.faults then Err(IoFault(DeleteTodoRow))
    else
      var keep := (row: TodoRow) => row.id != id;
      Seqs.FilterIsSubseq(db.todos, keep);
      if WF(db) then Seqs.SubseqPairwise(Seqs.Filter(db.todos, keep), db.todos, TodoBefore); Ok(db.(todos := Seqs.Filter(db.todos, keep)))
      else Ok(db.(todos := Seqs.Filter(db.todos, keep)))
  }

  // ---------------------------------------------------------------- rows written by the app

  /** Every todo row has the three columns a read needs: true of every row the model functions write. */
  predicate AllScannable(db: Db) {
    forall i :: 0 <= i < |db.todos| ==> Scannable(db.todos[i])
  }

  /** Creating, updating and deleting todos keep every row scannable. */
  lemma TodoWritesKeepScannable(db: Db, env: Env, u: UserRow, t: Todo, id: int, content: string, priority: string, dueDate: string)
    requires AllScannable(db)
    ensures CreateTodo(db, env, u, content, priority, dueDate).Ok? ==> AllScannable(CreateTodo(db, env, u, content, priority, dueDate).value)
    ensures UpdateTodo(db, env, t).Ok? ==> AllScannable(UpdateTodo(db, env, t).value)
    ensures DeleteTodo(db, env, id).Ok? ==> AllScannable(DeleteTodo(db, env, id).value)
  {
    var d := DeleteTodo(db, env, id);
    if d.Ok? {
      forall i | 0 <= i < |d.value.todos| ensures Scannable(d.value.todos[i]) {
        assert d.value.todos[i] in db.todos;
      }
    }
  }

  /** When every row is scannable, listing a user's todos reports no error and loses no row. */
  lemma {:induction false} ScanAllScannable(rows: seq<TodoRow>, sqlToday: string)
    requires forall i :: 0 <= i < |rows| ==> Scannable(rows[i])
    ensures ScanRows(rows, sqlToday).1.None?
    ensures |ScanRows(rows, sqlToday).0| == |rows|
  {
    Seqs.FilterAll(rows, Scannable);
  }

  lemma GetTodosByUserComplete(db: Db, env: Env, u: UserRow)
    requires AllScannable(db) && SelectTodosByUser !in env.faults
    ensures GetTodosByUser(db, env, u).1.None?
    ensures |GetTodosByUser(db, env, u).0| == |Seqs.Filter(db.todos, TodoOf(u.id))|
  {
    var mine := Seqs.Filter(db.todos, TodoOf(u.id));
    forall i | 0 <= i < |mine| ensures Scannable(mine[i]) {
      assert mine[i] in db.todos;
    }
    ScanAllScannable(mine, env.sqlToday);
  }

  /** A todo just created is the last one its owner's listing returns, and the listing reports no
      error, whatever the older rows hold. */
  lemma CreatedTodoListedLast(db: Db, env: Env, u: UserRow, content: string, priority: string, dueDate: string, env2: Env, db': Db)
    requires CreateTodo(db, env, u, content, priority, dueDate) == Ok(db') && SelectTodosByUser !in env2.faults
    ensures var listed := GetTodosByUser(db', env2, u);
      && listed.1.None? && |listed.0| > 0
      && listed.0[|listed.0| - 1] == Todo(db.todoSeq + 1, content, u.id, if priority == "" then "medium" else priority,
                                          "todo", if dueDate == "" then env.today else dueDate, env.now)
  {
    var p := if priority == "" then "medium" else priority;
    var d := if dueDate == "" then env.today else dueDate;
    CreateTodoAppends(db, env, u, content, priority, dueDate);
    ListedLastOf(db', env2, u, db.todos, db.todoSeq + 1, content, p, "todo", d, env.now);
  }

  /** The row `CreateTodo` appends, in full. */
  lemma CreateTodoAppends(db: Db, env: Env, u: UserRow, content: string, priority: string, dueDate: string)
    requires CreateTodo(db, env, u, content, priority, dueDate).Ok?
    ensures CreateTodo(db, env, u, content, priority, dueDate).value.todos
         == db.todos + [TodoRow(db.todoSeq + 1, Some(content), Some(u.id), Some(if priority == "" then "medium" else priority),
                                Some("todo"), Some(if dueDate == "" then env.today else dueDate), Some(env.now))]
  {
  }

  /** The listing of a store whose last row is a complete row of `u` ends with that row's todo. */
  lemma ListedLastOf(d: Db, env: Env, u: UserRow, older: seq<TodoRow>,
                     id: int, content: string, priority: string, status: string, dueDate: string, createdAt: int)
    requires d.todos == older + [TodoRow(id, Some(content), Some(u.id), Some(priority), Some(status), Some(dueDate), Some(createdAt))]
    requires SelectTodosByUser !in env.faults
    ensures var listed := GetTodosByUser(d, env, u);
      && listed.1.None? && |listed.0| > 0
      && listed.0[|listed.0| - 1] == Todo(id, content, u.id, priority, status, dueDate, createdAt)
  {
    var row := TodoRow(id, Some(content), Some(u.id), Some(priority), Some(status), Some(dueDate), Some(createdAt));
    OwnRowListedLast(older, row, u.id, env.sqlToday);
  }

  /** A scannable row appended for `userId` is the last todo that user's scan returns. */
  lemma OwnRowListedLast(todos: seq<TodoRow>, row: TodoRow, userId: int, sqlToday: string)
    requires Scannable(row) && row.userId == Some(userId)
    ensures var r := ScanRows(Seqs.Filter(todos + [row], TodoOf(userId)), sqlToday);
      r.1.None? && |r.0| > 0 && Ok(r.0[|r.0| - 1]) == ReadTodo(row, sqlToday)
  {
    Seqs.FilterSnoc(todos, row, TodoOf(userId));
    ScanLast(Seqs.Filter(todos, TodoOf(userId)), row, sqlToday);
  }

  /** A scannable row at the end is read last, and leaves no error behind. */
  lemma ScanLast(rows: seq<TodoRow>, row: TodoRow, sqlToday: string)
    requires Scannable(row)
    ensures var r := ScanRows(rows + [row], sqlToday);
      r.1.None? && |r.0| > 0 && Ok(r.0[|r.0| - 1]) == ReadTodo(row, sqlToday)
  {
    Seqs.FilterSnoc(rows, row, Scannable);
    var f := Seqs.Filter(rows + [row], Scannable);
    assert f[|f| - 1] == row;
  }
}

=== FILE: tasks.dfy ===
/** Translation between the backend's todo records and the dashboard's task records,
    and the task gateway calls that build requests from them. */
module Tasks {
  import opened Common
  import opened Api
  import Text

  /** The three statuses the dashboard displays: "To Do", "In Progress", "Completed". */
  datatype UiStatus = ToDo | InProgress | Completed

  /** The display category derived from a todo's text; `project` and `category` both carry it. */
  datatype Category = Work | Team | Personal | General

  /** A dashboard task. `priority` is whatever the backend sent, unchecked. */
  datatype Task = Task(
    id: string, name: string, project: Category, status: UiStatus,
    dueDate: string, priority: string, category: Category)

  /** The fields of a partial task that the backend conversion reads; `None` is an absent field. */
  datatype TaskPatch = TaskPatch(
    name: Option<string>, priority: Option<string>, status: Option<UiStatus>, dueDate: Option<string>)

  /** The body of `POST /todos/update/:id`. */
  datatype TodoBody = TodoBody(content: string, priority: string, status: string, dueDate: string)

  /** The body of `POST /todos/save`. */
  datatype SaveBody = SaveBody(content: string, priority: string, dueDate: string)

  /** What the create form hands to the gateway; optional fields may be absent. */
  datatype Draft = Draft(name: string, priority: Option<string>, dueDate: Option<string>)

  datatype Body = SaveJson(save: SaveBody) | UpdateJson(update: TodoBody) | EmptyJson

  /** A POST request the gateway issues. */
  datatype Post = Post(path: string, body: Body)

  const WorkWords: seq<string> := ["work", "meeting", "project"]
  const TeamWords: seq<string> := ["team", "collaborate"]
  const PersonalWords: seq<string> := ["personal", "home", "family"]

  const CreateTaskError := "Failed to create task. Please try again."
  const UpdateTaskError := "Failed to update task. Please try again."
  const DeleteTaskError := "Failed to delete task. Please try again."
  const NotAFunction := "TypeError: response.todos.map is not a function"

  /** JavaScript `s || d` on a string. */
  function OrDefault(s: string, d: string): string {
    if s == "" then d else s
  }

  /** JavaScript `x || d` on an optional string. */
  function OptOrDefault(x: Option<string>, d: string): string {
    match x
    case None => d
    case Some(s) => OrDefault(s, d)
  }

  predicate IsWireStatus(s: string) {
    s == "todo" || s == "in_progress" || s == "completed"
  }

  // ---------------------------------------------------------------- category

  /** The keyword heuristic: case-insensitive, Work before Team before Personal, General otherwise. */
  function Categorize(content: string): (c: Category)
    ensures c == Work <==> Text.ContainsAny(Text.ToLower(content), WorkWords)
    ensures c == Team <==>
      !Text.ContainsAny(Text.ToLower(content), WorkWords) && Text.ContainsAny(Text.ToLower(content), TeamWords)
    ensures c == Personal <==>
      && !Text.ContainsAny(Text.ToLower(content), WorkWords)
      && !Text.ContainsAny(Text.ToLower(content), TeamWords)
      && Text.ContainsAny(Text.ToLower(content), PersonalWords)
    ensures c == General ==> !Text.ContainsAny(Text.ToLower(content), PersonalWords)
  {
    var lower := Text.ToLower(content);
    if Text.ContainsAny(lower, WorkWords) then Work
    else if Text.ContainsAny(lower, TeamWords) then Team
    else if Text.ContainsAny(lower, PersonalWords) then Personal
    else General
  }

  /** Letter case never changes the category. */
  lemma CategorizeIgnoresCase(content: string)
    ensures Categorize(Text.ToLower(content)) == Categorize(content)
  {
    Text.ToLowerIdempotent(content);
  }

  // ---------------------------------------------------------------- status

  function StatusFromWire(s: string): (u: UiStatus)
    ensures u == Completed <==> s == "completed"
    ensures u == InProgress <==> s == "in_progress"
  {
    if s == "completed" then Completed else if s == "in_progress" then InProgress else ToDo
  }

  function StatusToWire(s: Option<UiStatus>): (w: string)
    ensures IsWireStatus(w)
    ensures w == "completed" <==> s == Some(Completed)
    ensures w == "in_progress" <==> s == Some(InProgress)
  {
    if s == Some(Completed) then "completed" else if s == Some(InProgress) then "in_progress" else "todo"
  }

  /** Every backend status the backend writes survives a trip through the dashboard. */
  lemma WireStatusRoundTrip(s: string)
    requires IsWireStatus(s)
    ensures StatusToWire(Some(StatusFromWire(s))) == s
  {
  }

  /** Every dashboard status survives a trip through the backend. */
  lemma UiStatusRoundTrip(u: UiStatus)
    ensures StatusFromWire(StatusToWire(Some(u))) == u
  {
  }

  // ---------------------------------------------------------------- records

  /** `convertTodoToTask`: `today` is the ISO date the browser computes. */
  function ConvertTodoToTask(todo: BackendTodo, today: string): (t: Task)
    ensures Text.IsDigits(t.id) && Text.DecimalValue(t.id) == todo.id
    ensures t.name == todo.content
    ensures t.project == t.category == Categorize(todo.content)
    ensures t.status == Completed <==> todo.status == "completed"
    ensures t.status == InProgress <==> todo.status == "in_progress"
    ensures todo.priority != "" ==> t.priority == todo.priority
    ensures todo.priority == "" ==> t.priority == "medium"
    ensures todo.dueDate != "" ==> t.dueDate == todo.dueDate
    ensures todo.dueDate == "" ==> t.dueDate == today
  {
    Text.DecimalValueOfNatToString(todo.id);
    var project := Categorize(todo.content);
    Task(Text.NatToString(todo.id), todo.content, project, StatusFromWire(todo.status),
         OrDefault(todo.dueDate, today), OrDefault(todo.priority, "medium"), project)
  }

  /** `convertTaskToTodo` on a partial task. */
  function ConvertTaskToTodo(p: TaskPatch, today: string): (b: TodoBody)
    ensures IsWireStatus(b.status)
    ensures b.status == "completed" <==> p.status == Some(Completed)
    ensures b.status == "in_progress" <==> p.status == Some(InProgress)
    ensures b.content == p.name.GetOr("")
    ensures b.priority != ""
    ensures (p.priority.Some? && p.priority.value != "") ==> b.priority == p.priority.value
    ensures (p.priority.None? || p.priority == Some("")) ==> b.priority == "medium"
    ensures (p.dueDate.Some? && p.dueDate.value != "") ==> b.dueDate == p.dueDate.value
    ensures (p.dueDate.None? || p.dueDate == Some("")) ==> b.dueDate == today
  {
    TodoBody(OptOrDefault(p.name, ""), OptOrDefault(p.priority, "medium"), StatusToWire(p.status),
             OptOrDefault(p.dueDate, today))
  }

  /** A whole task spread into a partial one (`{...task}`). */
  function AsPatch(t: Task): TaskPatch {
    TaskPatch(Some(t.name), Some(t.priority), Some(t.status), Some(t.dueDate))
  }

  /** Backend record to task and back: content and status come back unchanged, and the two
      defaults (priority `medium`, due date today) are the only edits. */
  lemma BackendRoundTrip(todo: BackendTodo, today: string)
    requires IsWireStatus(todo.status)
    ensures ConvertTaskToTodo(AsPatch(ConvertTodoToTask(todo, today)), today)
         == TodoBody(todo.content, OrDefault(todo.priority, "medium"), todo.status, OrDefault(todo.dueDate, today))
  {
  }

  /** Task to backend body and back, for a task whose fields are already normalised:
      the backend's echo of the body converts to the same task. */
  lemma TaskRoundTrip(t: Task, id: nat, userId: int, createdAt: string, today: string)
    requires t.id == Text.NatToString(id)
    requires t.priority != "" && t.dueDate != ""
    requires t.project == Categorize(t.name) && t.category == t.project
    ensures var b := ConvertTaskToTodo(AsPatch(t), today);
            ConvertTodoToTask(BackendTodo(id, b.content, userId, b.priority, b.status, b.dueDate, createdAt), today) == t
  {
    var b := ConvertTaskToTodo(AsPatch(t), today);
    assert StatusFromWire(b.status) == t.status;
  }

  // ---------------------------------------------------------------- gateway

  function ConvertAll(todos: seq<BackendTodo>, today: string): (ts: seq<Task>)
    ensures |ts| == |todos|
    ensures forall i :: 0 <= i < |todos| ==> ts[i] == ConvertTodoToTask(todos[i], today)
    decreases |todos|
  {
    if |todos| == 0 then [] else [ConvertTodoToTask(todos[0], today)] + ConvertAll(todos[1..], today)
  }

  /** `tasksApi.getTasks`: an array of todos is converted element by element; a missing or falsy
      `todos` gives no tasks; a truthy non-array is mapped only when `status` is `success`, where
      it has no `map` method and throws; a rejected request is re-thrown unchanged. */
  function GetTasks(reply: Reply, today: string): (r: Result<seq<Task>, string>)
    ensures reply.Rejected? ==> r == Err(reply.reason)
    ensures reply.Replied? && reply.payload.todos.TodoArray? ==>
      && r.Ok?
      && |r.value| == |reply.payload.todos.items|
      && forall i :: 0 <= i < |r.value| ==> r.value[i] == ConvertTodoToTask(reply.payload.todos.items[i], today)
    ensures reply.Replied? && reply.payload.todos.Falsy? ==> r == Ok([])
    ensures reply.Replied? && reply.payload.todos.TruthyNonArray? ==>
      (r.Err? <==> reply.payload.status == "success")
  {
    match reply
    case Rejected(reason) => Err(reason)
    case Replied(payload) =>
      match payload.todos
      case TodoArray(items) => Ok(ConvertAll(items, today))
      case TruthyNonArray => if payload.status == "success" then Err(NotAFunction) else Ok([])
      case Falsy => Ok([])
  }

  /** Replaces a rejection's reason with a fixed message, as the gateway's catch blocks do. */
  function Rethrow(sent: Reply, message: string): (o: Outcome)
    ensures o.Failed? <==> sent.Rejected?
    ensures o.Failed? ==> o.message == message
  {
    if sent.Rejected? then Failed(message) else Done
  }

  /** `tasksApi.createTask`: `sent` is how the POST settled. */
  function CreateTask(draft: Draft, today: string, sent: Reply): (r: (Post, Outcome))
    ensures r.0.path == "/todos/save" && r.0.body.SaveJson?
    ensures r.0.body.save.content == draft.name
    ensures r.0.body.save.priority == OptOrDefault(draft.priority, "medium")
    ensures r.0.body.save.dueDate == OptOrDefault(draft.dueDate, today)
    ensures r.1.Failed? <==> sent.Rejected?
    ensures r.1.Failed? ==> r.1.message == CreateTaskError
  {
    (Post("/todos/save", SaveJson(SaveBody(draft.name, OptOrDefault(draft.priority, "medium"),
                                            OptOrDefault(draft.dueDate, today)))),
     Rethrow(sent, CreateTaskError))
  }

  /** `tasksApi.updateTask`: the task id is pasted into the path as is. */
  function UpdateTask(taskId: string, patch: TaskPatch, today: string, sent: Reply): (r: (Post, Outcome))
    ensures r.0.path == "/todos/update/" + taskId
    ensures r.0.body == UpdateJson(ConvertTaskToTodo(patch, today))
    ensures r.1.Failed? <==> sent.Rejected?
    ensures r.1.Failed? ==> r.1.message == UpdateTaskError
  {
    (Post("/todos/update/" + taskId, UpdateJson(ConvertTaskToTodo(patch, today))), Rethrow(sent, UpdateTaskError))
  }

  /** `tasksApi.deleteTask`: posts an empty object. */
  function DeleteTask(taskId: string, sent: Reply): (r: (Post, Outcome))
    ensures r.0 == Post("/todos/delete/" + taskId, EmptyJson)
    ensures r.1.Failed? <==> sent.Rejected?
    ensures r.1.Failed? ==> r.1.message == DeleteTaskError
  {
    (Post("/todos/delete/" + taskId, EmptyJson), Rethrow(sent, DeleteTaskError))
  }
}

=== FILE: text.dfy ===
/** String primitives the source takes from its runtime libraries: JavaScript's
    `toLowerCase`, `includes`, `trim` and `<` on strings, `Number.prototype.toString`,
    and the decimal reading done by Go's `strconv.Atoi`. */
module Text {

  // ---------------------------------------------------------------- case

  function LowerChar(c: char): char {
    if 'A' <= c <= 'Z' then (c as int + 32) as char else c
  }

  /** Lower-cases the ASCII letters of `s` and leaves every other character alone. */
  function ToLower(s: string): (r: string)
    ensures |r| == |s|
    ensures forall i :: 0 <= i < |s| ==> !('A' <= r[i] <= 'Z')
    ensures forall i :: 0 <= i < |s| ==> (r[i] == s[i] || 'A' <= s[i] <= 'Z')
    decreases |s|
  {
    if |s| == 0 then [] else [LowerChar(s[0])] + ToLower(s[1..])
  }

  /** Lower-casing twice is lower-casing once. */
  lemma {:induction false} ToLowerIdempotent(s: string)
    ensures ToLower(ToLower(s)) == ToLower(s)
    decreases |s|
  {
    if |s| > 0 {
      ToLowerIdempotent(s[1..]);
      assert ToLower(s)[1..] == ToLower(s[1..]);
    }
  }

  // ---------------------------------------------------------------- substrings

  /** `sub` occurs in `s` at some offset (JavaScript `s.includes(sub)`); the empty string occurs everywhere. */
  predicate Contains(s: string, sub: string) {
    exists i :: 0 <= i <= |s| && OccursAt(s, sub, i)
  }

  predicate OccursAt(s: string, sub: string, i: int) {
    0 <= i && i + |sub| <= |s| && s[i..i + |sub|] == sub
  }

  /** Whether any of `words` occurs in `s`. */
  predicate ContainsAny(s: string, words: seq<string>) {
    exists k :: 0 <= k < |words| && Contains(s, words[k])
  }

  // ---------------------------------------------------------------- whitespace

  /** The characters ECMAScript's `String.prototype.trim` removes: WhiteSpace
      (the Unicode space separators, TAB, VT, FF, NBSP, ZWNBSP) and LineTerminator (LF, CR, LS, PS). */
  predicate IsWhite(c: char) {
    || c == '\t' || c == '\n' || c == '\U{000B}' || c == '\U{000C}' || c == '\r' || c == ' '
    || c == '\U{00A0}' || c == '\U{1680}' || ('\U{2000}' <= c <= '\U{200A}')
    || c == '\U{2028}' || c == '\U{2029}' || c == '\U{202F}' || c == '\U{205F}' || c == '\U{3000}'
    || c == '\U{FEFF}'
  }

  predicate AllWhite(s: string) {
    forall i :: 0 <= i < |s| ==> IsWhite(s[i])
  }

  function TrimStart(s: string): (r: string)
    ensures |r| <= |s| && r == s[|s| - |r|..]
    ensures AllWhite(s[..|s| - |r|])
    ensures |r| == 0 || !IsWhite(r[0])
    decreases |s|
  {
    if |s| > 0 && IsWhite(s[0]) then
      var r := TrimStart(s[1..]);
      assert s[..|s| - |r|] == [s[0]] + s[1..][..|s[1..]| - |r|];
      r
    else s
  }

  function TrimEnd(s: string): (r: string)
    ensures |r| <= |s| && r == s[..|r|]
    ensures AllWhite(s[|r|..])
    ensures |r| == 0 || !IsWhite(r[|r| - 1])
    decreases |s|
  {
    if |s| > 0 && IsWhite(s[|s| - 1]) then
      var r := TrimEnd(s[..|s| - 1]);
      assert s[|r|..] == s[..|s| - 1][|r|..] + [s[|s| - 1]];
      r
    else s
  }

  /** JavaScript `s.trim()`: `s` without its leading and trailing whitespace. */
  function Trim(s: string): (r: string)
    ensures exists a, b :: 0 <= a <= b <= |s| && r == s[a..b] && AllWhite(s[..a]) && AllWhite(s[b..])
    ensures |r| == 0 || (!IsWhite(r[0]) && !IsWhite(r[|r| - 1]))
  {
    var t := TrimStart(s);
    var r := TrimEnd(t);
    var a := |s| - |t|;
    var b := a + |r|;
    assert r == s[a..b];
    assert s[b..] == t[|r|..];
    r
  }

  /** A string trims to nothing exactly when it is all whitespace: the truthiness test `if (q.trim())`. */
  lemma TrimEmptyIffBlank(s: string)
    ensures Trim(s) == [] <==> AllWhite(s)
  {
    var t := TrimStart(s);
    if Trim(s) == [] {
      assert s == s[..|s| - |t|] + t;
      assert t == t[..0] + t[0..];
    }
  }

  // ---------------------------------------------------------------- ordering

  /** The relational `<` of JavaScript strings: lexicographic by character, a proper prefix sorting first. */
  predicate LexLess(a: string, b: string)
    decreases |a|
  {
    if |b| == 0 then false
    else if |a| == 0 then true
    else if a[0] != b[0] then a[0] < b[0]
    else LexLess(a[1..], b[1..])
  }

  lemma {:induction false} LexLessIrreflexive(a: string)
    ensures !LexLess(a, a)
    decreases |a|
  {
    if |a| > 0 {
      LexLessIrreflexive(a[1..]);
    }
  }

  lemma {:induction false} LexLessAsymmetric(a: string, b: string)
    requires LexLess(a, b)
    ensures !LexLess(b, a)
    decreases |a|
  {
    if |a| > 0 && |b| > 0 && a[0] == b[0] {
      LexLessAsymmetric(a[1..], b[1..]);
    }
  }

  lemma {:induction false} LexLessTransitive(a: string, b: string, c: string)
    requires LexLess(a, b) && LexLess(b, c)
    ensures LexLess(a, c)
    decreases |a|
  {
    if |a| > 0 && a[0] == b[0] && b[0] == c[0] {
      LexLessTransitive(a[1..], b[1..], c[1..]);
    }
  }

  /** Any two different strings are ordered one way or the other. */
  lemma {:induction false} LexLessTotal(a: string, b: string)
    requires a != b
    ensures LexLess(a, b) || LexLess(b, a)
    decreases |a|
  {
    if |a| > 0 && |b| > 0 && a[0] == b[0] {
      assert a == [a[0]] + a[1..] && b == [b[0]] + b[1..];
      LexLessTotal(a[1..], b[1..]);
    }
  }

  // ---------------------------------------------------------------- decimal numerals

  predicate IsDigit(c: char) {
    '0' <= c <= '9'
  }

  predicate IsDigits(s: string) {
    forall i :: 0 <= i < |s| ==> IsDigit(s[i])
  }

  function DigitChar(d: nat): (c: char)
    requires d < 10
    ensures IsDigit(c) && c as int - '0' as int == d
  {
    ('0' as int + d) as char
  }

  /** The value of a string of decimal digits, leading zeros allowed. */
  function DecimalValue(s: string): nat
    requires IsDigits(s)
    decreases |s|
  {
    if |s| == 0 then 0
    else DecimalValue(s[..|s| - 1]) * 10 + (s[|s| - 1] as int - '0' as int)
  }

  /** The decimal numeral of `n` with no leading zero (`n.toString()` for a non-negative integer). */
  function NatToString(n: nat): (r: string)
    ensures |r| > 0 && IsDigits(r)
    ensures r[0] == '0' ==> n == 0
    decreases n
  {
    if n < 10 then [DigitChar(n)] else NatToString(n / 10) + [DigitChar(n % 10)]
  }

  /** Printing then reading a numeral gives the number back. */
  lemma {:induction false} DecimalValueOfNatToString(n: nat)
    ensures DecimalValue(NatToString(n)) == n
    decreases n
  {
    if n >= 10 {
      DecimalValueOfNatToString(n / 10);
      var s := NatToString(n);
      assert s[..|s| - 1] == NatToString(n / 10);
    }
  }

  /** A leading zero does not change a numeral's value. */
  lemma {:induction false} DecimalValueLeadingZero(s: string)
    requires IsDigits(s)
    ensures DecimalValue("0" + s) == DecimalValue(s)
    decreases |s|
  {
    if |s| > 0 {
      var t := "0" + s;
      assert t[..|t| - 1] == "0" + s[..|s| - 1];
      DecimalValueLeadingZero(s[..|s| - 1]);
    }
  }
}
